=== FILE: README.md ===
# OpenShift client core of the Quarkus test framework, in Dafny

This project models the deterministic core of the framework's OpenShift
client (`OpenShiftClient`) and proves properties of it:

- the path and name helpers that turn a resource path into a mount directory,
  a file name and a Kubernetes object name;
- the property resolver (`enrichProperties`). It classifies each service
  property value by prefix: `resource`, `resource-with-destination`,
  `secret` or untagged. Tagged values are materialised as ConfigMap entries
  or Secrets, recorded as volumes by mount path, and rewritten to the path
  of the mounted file. The volumes are then added to the pod spec and
  mounted read-only in every container;
- template enrichment (`enrichTemplate`, `getEnvVarByKey`). Every object is
  put into the namespace and tagged with the scenario id. A deployment
  config is also renamed, its pod template labelled, and its containers'
  environment merged with the resolved properties, overridden by the extra
  template properties;
- ephemeral project creation (`createProject`, `generateRandomProjectName`);
- the small decision rules: `isCustomResourceReady`, `url`, the `execOnPod`
  argument list, and the idempotent `expose` and `scaleTo`.

The cluster is the state of the class `Client.OpenShiftClient`. Its fields
are the ConfigMaps (name → data), the Secret names, the routes, the replica
counts, and the log of `oc` invocations made. Everything outside the
client's own logic is a parameter:

- whether an `oc` invocation succeeds (`Context.cli`);
- file search and loading (`Context.filePath`, `Context.load`);
- the iteration order of Java hash maps (`Context.order`, required to list
  every key of a set exactly once);
- the knative lookups, and the host the cluster gives a new route;
- the random letters (`draws`).

The prefixes, the destination split character and the destination matcher
are defined outside the client. They are fields of `PropertySyntax.Syntax`:
the prefixes are non-empty and pairwise distinct, the split character is one
character, and the matcher is an arbitrary predicate.

Each imperative method is proved equal to a specification function
(`Resolver.Resolve`, `Template.EnrichAll`, `Volumes.MountAll`,
`EnvVars.MergedEnv`). The properties are lemmas about those functions.

A resource in a directory is mounted at that directory:
`resource::config/app.yml` is rewritten to `/config/app.yml`, with ConfigMap
`config`; `Resolver.ResourceInDirectory` states the rule.

## Model

All source paths are relative to the repository root; `OpenShiftClient.java`
stands for `quarkus-test-openshift/src/main/java/io/quarkus/test/bootstrap/inject/OpenShiftClient.java`.

| member | source | states |
|---|---|---|
| Paths.LastIndexOf | quarkus-test-openshift/src/main/java/io/quarkus/test/bootstrap/inject/OpenShiftClient.java:844 | `lastIndexOf`: -1 exactly when the character is absent, otherwise a position holding it with none after it |
| Paths.FileName | quarkus-test-openshift/src/main/java/io/quarkus/test/bootstrap/inject/OpenShiftClient.java:839-845 | the file name has no slash, is a suffix of the path, and is the whole path when the path has no slash |
| Paths.MountPath | quarkus-test-openshift/src/main/java/io/quarkus/test/bootstrap/inject/OpenShiftClient.java:847-858 | the mount path is non-empty and starts with `/`; it is `/resources` when the path has no slash |
| Paths.MountPathRejoins | quarkus-test-openshift/src/main/java/io/quarkus/test/bootstrap/inject/OpenShiftClient.java:839-858 | with a non-empty directory part, mount path + `/` + file name is the path with a leading `/` ensured |
| Paths.RootFileMountsUnderResources | quarkus-test-openshift/src/main/java/io/quarkus/test/bootstrap/inject/OpenShiftClient.java:852 | a path whose only slash is its first character (empty directory part) is mounted at `/resources` |
| Paths.LastSlashAt | quarkus-test-openshift/src/main/java/io/quarkus/test/bootstrap/inject/OpenShiftClient.java:844 | in `dir/file` with no slash in `file`, the last slash is the one after `dir` |
| Paths.DirAndFile | quarkus-test-openshift/src/main/java/io/quarkus/test/bootstrap/inject/OpenShiftClient.java:839-858 | `dir/file` has file name `file` and mount path `dir` made absolute |
| Paths.Dashed | quarkus-test-openshift/src/main/java/io/quarkus/test/bootstrap/inject/OpenShiftClient.java:885-886 | same length, no `.` or `/` left, every `.` and `/` replaced by `-` and every other character kept |
| Paths.NormalizeConfigMapName | quarkus-test-openshift/src/main/java/io/quarkus/test/bootstrap/inject/OpenShiftClient.java:883-887 | no `.` and no `/` in the name; length is the input's, minus one when it starts with `/` |
| PropertySyntax.RemoveAll | quarkus-test-openshift/src/main/java/io/quarkus/test/bootstrap/inject/OpenShiftClient.java:683 | `replace(prefix, "")` never lengthens the value |
| PropertySyntax.RemoveAllWithoutOccurrence | quarkus-test-openshift/src/main/java/io/quarkus/test/bootstrap/inject/OpenShiftClient.java:683 | a value in which the prefix does not occur is left unchanged |
| PropertySyntax.RemoveAllLeading | quarkus-test-openshift/src/main/java/io/quarkus/test/bootstrap/inject/OpenShiftClient.java:683 | a leading prefix is removed and the rest is processed on its own |
| PropertySyntax.StrippedPath | quarkus-test-openshift/src/main/java/io/quarkus/test/bootstrap/inject/OpenShiftClient.java:683 | prefix + path yields path when the prefix does not occur in the path |
| PropertySyntax.RepeatedPrefixRemoved | quarkus-test-openshift/src/main/java/io/quarkus/test/bootstrap/inject/OpenShiftClient.java:683 | every occurrence is removed, not just the leading one: prefix + prefix + rest yields what rest yields |
| PropertySyntax.Classify | quarkus-test-openshift/src/main/java/io/quarkus/test/bootstrap/inject/OpenShiftClient.java:889-899 | untagged exactly when no prefix starts the value; `resource` exactly when its prefix does; `resource-with-destination` and `secret` only when their prefix does, `secret` only when the destination prefix does not |
| PropertySyntax.Fields | quarkus-test-openshift/src/main/java/io/quarkus/test/bootstrap/inject/OpenShiftClient.java:705-706 | splitting at the separator yields at least one field, none containing the separator |
| PropertySyntax.FieldsWithoutSeparator | quarkus-test-openshift/src/main/java/io/quarkus/test/bootstrap/inject/OpenShiftClient.java:705-706 | a string without the separator is one field |
| PropertySyntax.FieldsAfterHead | quarkus-test-openshift/src/main/java/io/quarkus/test/bootstrap/inject/OpenShiftClient.java:705-706 | the fields of `a|b` are `a` followed by the fields of `b` |
| PropertySyntax.JavaSplit | quarkus-test-openshift/src/main/java/io/quarkus/test/bootstrap/inject/OpenShiftClient.java:705-706 | `split` at one character: the whole value when the character is absent; no part contains it; otherwise a prefix of the fields with the trailing empty ones dropped |
| PropertySyntax.SplitPair | quarkus-test-openshift/src/main/java/io/quarkus/test/bootstrap/inject/OpenShiftClient.java:705-706 | `split` of `dest|file` (no separator inside, non-empty file) is exactly `[dest, file]` |
| PropertySyntax.SplitWithoutSeparator | quarkus-test-openshift/src/main/java/io/quarkus/test/bootstrap/inject/OpenShiftClient.java:705-706 | `split` of a value without the separator has one field, so index 1 is out of bounds |
| EnvVars.EnvVarByKey | quarkus-test-openshift/src/main/java/io/quarkus/test/bootstrap/inject/OpenShiftClient.java:671-673 | `getEnvVarByKey`: the index of the first variable with that name, or none when no variable has it |
| EnvVars.SameNamesSamePosition | quarkus-test-openshift/src/main/java/io/quarkus/test/bootstrap/inject/OpenShiftClient.java:671-673 | the first match depends only on the names, and appending other names does not move it |
| EnvVars.FirstPositionInPrefix | quarkus-test-openshift/src/main/java/io/quarkus/test/bootstrap/inject/OpenShiftClient.java:671-673 | a first match inside a prefix is the prefix's first match |
| EnvVars.SetEnv | quarkus-test-openshift/src/main/java/io/quarkus/test/bootstrap/inject/OpenShiftClient.java:647-653 | one property: the first variable of that name gets the value, or a variable is appended when none exists; other names look up as before; no duplicate names are introduced |
| EnvVars.MergedEnv | quarkus-test-openshift/src/main/java/io/quarkus/test/bootstrap/inject/OpenShiftClient.java:644-654 | merging keeps every existing variable name in place and appends at most one variable per key |
| EnvVars.MergedEnvLookup | quarkus-test-openshift/src/main/java/io/quarkus/test/bootstrap/inject/OpenShiftClient.java:644-654 | after merging, each property key looks up to its value and every other name to its old value |
| EnvVars.MergedEnvShape | quarkus-test-openshift/src/main/java/io/quarkus/test/bootstrap/inject/OpenShiftClient.java:644-654 | existing variables keep their names and positions; only first occurrences of merged names change; appended variables are merged names that were absent |
| EnvVars.MergedEnvExisting | quarkus-test-openshift/src/main/java/io/quarkus/test/bootstrap/inject/OpenShiftClient.java:644-654 | existing variables keep their names and positions; a variable whose name is not merged is untouched; only the first variable of a merged name changes |
| EnvVars.MergedEnvAppended | quarkus-test-openshift/src/main/java/io/quarkus/test/bootstrap/inject/OpenShiftClient.java:647-649 | every appended variable carries a merged name that had no variable before |
| EnvVars.MergedEnvNoDuplicates | quarkus-test-openshift/src/main/java/io/quarkus/test/bootstrap/inject/OpenShiftClient.java:644-654 | merging introduces no duplicate names |
| EnvVars.MergeEnv | quarkus-test-openshift/src/main/java/io/quarkus/test/bootstrap/inject/OpenShiftClient.java:645-654 | the loop over the properties computes `MergedEnv` |
| EnvVars.WithEnvLookup | quarkus-test-openshift/src/main/java/io/quarkus/test/bootstrap/inject/OpenShiftClient.java:644-654 | in every container each merged key reads its property value and every other name reads its old value; the container count, names and mounts are kept |
| EnvVars.InjectEnv | quarkus-test-openshift/src/main/java/io/quarkus/test/bootstrap/inject/OpenShiftClient.java:644-654 | the loop over the containers computes `WithEnv` |
| Volumes.CreateVolumeMount | quarkus-test-openshift/src/main/java/io/quarkus/test/bootstrap/inject/OpenShiftClient.java:745-754 | read-only mount at the key with the descriptor's name; the sub-path is set exactly when non-empty, to the descriptor's value |
| Volumes.MountAll | quarkus-test-openshift/src/main/java/io/quarkus/test/bootstrap/inject/OpenShiftClient.java:733-740 | one volume per key is added and every container gains one mount per key |
| Volumes.MountAllAppends | quarkus-test-openshift/src/main/java/io/quarkus/test/bootstrap/inject/OpenShiftClient.java:733-740 | existing volumes and mounts are kept as a prefix; the added volumes and mounts follow the keys in order; names and environments are untouched |
| Volumes.EveryContainerMountsEveryVolume | quarkus-test-openshift/src/main/java/io/quarkus/test/bootstrap/inject/OpenShiftClient.java:733-740 | every container mounts every recorded volume, read-only, exactly once per mount path |
| Volumes.MountsForCoversVolumes | quarkus-test-openshift/src/main/java/io/quarkus/test/bootstrap/inject/OpenShiftClient.java:733-740 | for an enumeration of the volumes: one mount per volume, read-only, at pairwise distinct mount paths, each at a recorded path |
| Volumes.DistinctCardinality | quarkus-test-openshift/src/main/java/io/quarkus/test/bootstrap/inject/OpenShiftClient.java:733 | iterating a map's entries visits as many entries as the map has |
| Volumes.MountVolumes | quarkus-test-openshift/src/main/java/io/quarkus/test/bootstrap/inject/OpenShiftClient.java:733-740 | the loop over the volumes computes `MountAll` |
| Commands.NatToString | quarkus-test-openshift/src/main/java/io/quarkus/test/bootstrap/inject/OpenShiftClient.java:258 | the decimal rendering of a count: a non-empty string of digits whose decimal value is the count, without leading zeros |
| Commands.IntToString | quarkus-test-openshift/src/main/java/io/quarkus/test/bootstrap/inject/OpenShiftClient.java:258 | the decimal rendering of a port: digits whose value is the number, with a `-` sign exactly for a negative one and no leading zeros |
| Commands.BuildExecArgs | quarkus-test-openshift/src/main/java/io/quarkus/test/bootstrap/inject/OpenShiftClient.java:517-527 | `oc exec pod -c container -n namespace`; exactly these seven arguments for an empty command, otherwise followed by `--` and the command |
| Resolver.CreateOrUpdate | quarkus-test-openshift/src/main/java/io/quarkus/test/bootstrap/inject/OpenShiftClient.java:756-772 | the named ConfigMap exists afterwards with the key set to the value; its other keys and all other ConfigMaps are unchanged |
| Resolver.CreateOrUpdateIdempotent | quarkus-test-openshift/src/main/java/io/quarkus/test/bootstrap/inject/OpenShiftClient.java:756-772 | putting the same entry twice equals putting it once |
| Resolver.CreateOrUpdateGrows | quarkus-test-openshift/src/main/java/io/quarkus/test/bootstrap/inject/OpenShiftClient.java:756-772 | no ConfigMap and no key is removed |
| Resolver.CreateSecretFromFile | quarkus-test-openshift/src/main/java/io/quarkus/test/bootstrap/inject/OpenShiftClient.java:931-940 | an existing secret runs nothing; otherwise one `oc create secret` is logged, the secret exists exactly when it succeeded, and a failure names that invocation; ConfigMaps untouched |
| Resolver.CreateSecretIdempotent | quarkus-test-openshift/src/main/java/io/quarkus/test/bootstrap/inject/OpenShiftClient.java:931-940 | the secret exists after a successful request; a repeated request runs nothing; at most one command runs |
| Resolver.CreateSecretGrows | quarkus-test-openshift/src/main/java/io/quarkus/test/bootstrap/inject/OpenShiftClient.java:931-940 | creating a secret leaves the ConfigMaps alone, removes no secret and only appends to the commands |
| Resolver.ResolveEntryOutput | quarkus-test-openshift/src/main/java/io/quarkus/test/bootstrap/inject/OpenShiftClient.java:680-730 | one entry writes only its own key, with the rewrite of its value |
| Resolver.ResolveEntry | quarkus-test-openshift/src/main/java/io/quarkus/test/bootstrap/inject/OpenShiftClient.java:680-730 | an earlier failure is kept unchanged; a new failure leaves the output and volumes as they were |
| Resolver.ResolvedOutput | quarkus-test-openshift/src/main/java/io/quarkus/test/bootstrap/inject/OpenShiftClient.java:680-731 | a completed pass outputs exactly the property keys, each with the rewrite of its own value, whatever the iteration order |
| Resolver.ResolveAll | quarkus-test-openshift/src/main/java/io/quarkus/test/bootstrap/inject/OpenShiftClient.java:680-731 | a pass started after a failure changes nothing |
| Resolver.Resolve | quarkus-test-openshift/src/main/java/io/quarkus/test/bootstrap/inject/OpenShiftClient.java:675-731 | on success the output has exactly the property keys, each the rewrite of its value; ConfigMap names and secrets only grow and commands are only appended |
| Resolver.LiteralPropertiesPassThrough | quarkus-test-openshift/src/main/java/io/quarkus/test/bootstrap/inject/OpenShiftClient.java:680-731 | untagged values are returned unchanged; no ConfigMap, Secret, volume or command; no failure |
| Resolver.ResourceEntry | quarkus-test-openshift/src/main/java/io/quarkus/test/bootstrap/inject/OpenShiftClient.java:682-696 | a resource becomes `mountPath/fileName`; ConfigMap `normalize(mountPath)` maps the file name to the content, other entries and ConfigMaps unchanged; the volume is recorded only when none is at the mount path (first wins) |
| Resolver.DestinationEntryRejected | quarkus-test-openshift/src/main/java/io/quarkus/test/bootstrap/inject/OpenShiftClient.java:697-706 | a value the matcher rejects, or one without the separator, fails before any ConfigMap is written |
| Resolver.DestinationEntryAccepted | quarkus-test-openshift/src/main/java/io/quarkus/test/bootstrap/inject/OpenShiftClient.java:705-716 | `dest|file` becomes `dest/name`; ConfigMap `normalize(dest)` maps `name` to the content; the check is on `dest` but the volume is keyed `dest/name`, with sub-path `name`; no secret is created and no command runs |
| Resolver.SecretEntry | quarkus-test-openshift/src/main/java/io/quarkus/test/bootstrap/inject/OpenShiftClient.java:717-727 | the secret is named after the full path; it is created only when absent, and a failed creation fails; the volume at the mount path is overwritten (last wins) |
| Resolver.ResourceInDirectory | quarkus-test-openshift/src/main/java/io/quarkus/test/bootstrap/inject/OpenShiftClient.java:682-696 | `dir/file` (e.g. `config/app.yml`) is mounted at `/dir` from ConfigMap `normalize(dir)` and becomes `/dir/file` |
| Resolver.SecretInDirectory | quarkus-test-openshift/src/main/java/io/quarkus/test/bootstrap/inject/OpenShiftClient.java:717-727 | `dir/file` (e.g. `certs/tls.crt`) makes secret `normalize(dir/file)` mounted at `/dir`, and the value becomes `/dir/file` |
| Resolver.LastSecretMounted | quarkus-test-openshift/src/main/java/io/quarkus/test/bootstrap/inject/OpenShiftClient.java:717-727 | of two secrets sharing a mount path, the one resolved last is the volume there; the first is still created and its value still points under that path |
| Resolver.SharedSecretMountFollowsOrder | quarkus-test-openshift/src/main/java/io/quarkus/test/bootstrap/inject/OpenShiftClient.java:717-727 | two distinct secrets sharing a mount path give different volume maps in the two iteration orders |
| Resolver.ResolveEntryIdempotent | quarkus-test-openshift/src/main/java/io/quarkus/test/bootstrap/inject/OpenShiftClient.java:680-730 | resolving an entry again after it succeeded changes nothing |
| Resolver.ResourceIdempotent | quarkus-test-openshift/src/main/java/io/quarkus/test/bootstrap/inject/OpenShiftClient.java:682-696 | a resource entry resolved twice equals once |
| Resolver.DestinationIdempotent | quarkus-test-openshift/src/main/java/io/quarkus/test/bootstrap/inject/OpenShiftClient.java:697-716 | an accepted destination entry resolved twice equals once |
| Resolver.PlaceDestinationIdempotent | quarkus-test-openshift/src/main/java/io/quarkus/test/bootstrap/inject/OpenShiftClient.java:705-716 | placing the same destination file twice equals once |
| Resolver.SecretIdempotent | quarkus-test-openshift/src/main/java/io/quarkus/test/bootstrap/inject/OpenShiftClient.java:717-727 | a successful secret entry resolved twice equals once |
| Resolver.PlaceSecretIdempotent | quarkus-test-openshift/src/main/java/io/quarkus/test/bootstrap/inject/OpenShiftClient.java:725-727 | recording a created secret's volume and rewritten value twice equals once |
| Resolver.FaultIsFinal | quarkus-test-openshift/src/main/java/io/quarkus/test/bootstrap/inject/OpenShiftClient.java:680-731 | after a failure the remaining entries change nothing |
| Resolver.ResolveEntryGrows | quarkus-test-openshift/src/main/java/io/quarkus/test/bootstrap/inject/OpenShiftClient.java:680-730 | one entry removes no ConfigMap, key or secret, and only appends commands |
| Resolver.ClusterOnlyGrows | quarkus-test-openshift/src/main/java/io/quarkus/test/bootstrap/inject/OpenShiftClient.java:680-731 | a pass removes no ConfigMap, key or secret, and only appends commands |
| Resolver.ResolveEntryVolumes | quarkus-test-openshift/src/main/java/io/quarkus/test/bootstrap/inject/OpenShiftClient.java:692-694 | one entry keeps the recorded mount paths and records its own resource or secret mount path |
| Resolver.MountPathsRecorded | quarkus-test-openshift/src/main/java/io/quarkus/test/bootstrap/inject/OpenShiftClient.java:680-731 | after a completed pass every resource and secret property has some volume recorded at its mount path |
| Template.Tagged | quarkus-test-openshift/src/main/java/io/quarkus/test/bootstrap/inject/OpenShiftClient.java:620-625 | the object is in the namespace and labelled with the scenario id, with its other labels kept |
| Template.PodLabels | quarkus-test-openshift/src/main/java/io/quarkus/test/bootstrap/inject/OpenShiftClient.java:637-639 | the pod template carries the service name under `tsLogWatch` and the scenario id, with its other labels kept |
| Template.EnrichResource | quarkus-test-openshift/src/main/java/io/quarkus/test/bootstrap/inject/OpenShiftClient.java:619-655 | a non-deployment object never fails and leaves the cluster; a deployment config without pod labels fails with the cluster unchanged; a result keeps the kind and is in the namespace |
| Template.EnrichResourceShape | quarkus-test-openshift/src/main/java/io/quarkus/test/bootstrap/inject/OpenShiftClient.java:618-655 | kind kept and object tagged; a deployment config is renamed after the service and its pod template namespaced and labelled; other objects keep their name and never fail; no pod-template labels fails without cluster change |
| Template.EnrichedEnv | quarkus-test-openshift/src/main/java/io/quarkus/test/bootstrap/inject/OpenShiftClient.java:642-654 | each container's variable for a key holds the extra template value if any, else the resolver's rewrite of the service property; other variables are untouched; no duplicates introduced |
| Template.EnrichedMounts | quarkus-test-openshift/src/main/java/io/quarkus/test/bootstrap/inject/OpenShiftClient.java:642 | each container of an enriched deployment config mounts every resolved volume exactly once |
| Template.EnrichAllTagsEverything | quarkus-test-openshift/src/main/java/io/quarkus/test/bootstrap/inject/OpenShiftClient.java:617-656 | a completed enrichment returns every object, in order, kind kept, namespaced and tagged |
| Template.EnrichAll | quarkus-test-openshift/src/main/java/io/quarkus/test/bootstrap/inject/OpenShiftClient.java:616-656 | a completed enrichment returns as many objects as it was given |
| Template.EnrichWithoutDeployments | quarkus-test-openshift/src/main/java/io/quarkus/test/bootstrap/inject/OpenShiftClient.java:617-656 | a template without deployment configs never fails and does not touch the cluster |
| Template.EnrichFailureIsFinal | quarkus-test-openshift/src/main/java/io/quarkus/test/bootstrap/inject/OpenShiftClient.java:617-656 | after a failing object the remaining objects change nothing |
| Projects.ProjectName | quarkus-test-openshift/src/main/java/io/quarkus/test/bootstrap/inject/OpenShiftClient.java:958-962 | `ts-` followed by ten lower-case letters, the next ten random draws |
| Projects.CreateProject | quarkus-test-openshift/src/main/java/io/quarkus/test/bootstrap/inject/OpenShiftClient.java:909-929 | one to five attempts with the generated names in order; all but the last failed; success exactly when the last one succeeded, returning its name; five failures fail |
| Readiness.AnyReady | quarkus-test-openshift/src/main/java/io/quarkus/test/bootstrap/inject/OpenShiftClient.java:512-514 | true exactly when some condition has type `Ready` and status `True` |
| Readiness.IsCustomResourceReady | quarkus-test-openshift/src/main/java/io/quarkus/test/bootstrap/inject/OpenShiftClient.java:501-515 | ready exactly when the resource, its status and its conditions exist and one condition is `Ready`/`True` |
| Readiness.ReadinessSurvivesNewConditions | quarkus-test-openshift/src/main/java/io/quarkus/test/bootstrap/inject/OpenShiftClient.java:512-514 | a ready resource stays ready when more conditions are reported |
| Readiness.RouteUrl | quarkus-test-openshift/src/main/java/io/quarkus/test/bootstrap/inject/OpenShiftClient.java:405-415 | fails exactly when the route or its spec is missing; otherwise `https` iff TLS is set, the route's host, port -1, the route's path or `""` |
| Readiness.ServiceUrl | quarkus-test-openshift/src/main/java/io/quarkus/test/bootstrap/inject/OpenShiftClient.java:399-416 | a serverless service uses its knative URL and fails without one; any other service uses its route |
| Client.OpenShiftClient.Create | quarkus-test-openshift/src/main/java/io/quarkus/test/bootstrap/inject/OpenShiftClient.java:114-128 | with ephemeral namespaces the attempts are `oc new-project` with the generated names in order, all but the last failed, and the client works in the last one's project; creation fails only when all five attempts fail; otherwise the active namespace with no command run |
| Client.OpenShiftClient.CreateOrUpdateConfigMap | quarkus-test-openshift/src/main/java/io/quarkus/test/bootstrap/inject/OpenShiftClient.java:756-772 | the ConfigMaps become `CreateOrUpdate` of the old ones; nothing else changes |
| Client.OpenShiftClient.DoCreateSecretFromFile | quarkus-test-openshift/src/main/java/io/quarkus/test/bootstrap/inject/OpenShiftClient.java:931-940 | the new cluster state and failure are those of `CreateSecretFromFile` |
| Client.OpenShiftClient.ResolveProperty | quarkus-test-openshift/src/main/java/io/quarkus/test/bootstrap/inject/OpenShiftClient.java:681-730 | one loop iteration does what `ResolveEntry` specifies |
| Client.OpenShiftClient.EnrichProperties | quarkus-test-openshift/src/main/java/io/quarkus/test/bootstrap/inject/OpenShiftClient.java:675-743 | cluster, failure and output are those of `Resolve`; the pod spec is `MountAll` of the recorded volumes |
| Client.OpenShiftClient.EnrichObject | quarkus-test-openshift/src/main/java/io/quarkus/test/bootstrap/inject/OpenShiftClient.java:619-655 | one template object is enriched as `EnrichResource` specifies |
| Client.OpenShiftClient.EnrichTemplate | quarkus-test-openshift/src/main/java/io/quarkus/test/bootstrap/inject/OpenShiftClient.java:616-656 | the objects and cluster are those of `EnrichAll`, and a failure is its failure |
| Client.OpenShiftClient.Expose | quarkus-test-openshift/src/main/java/io/quarkus/test/bootstrap/inject/OpenShiftClient.java:250-263 | no-op when a route exists; otherwise one `oc expose`, a failure when it fails, a plain route when it succeeds |
| Client.OpenShiftClient.ScaleTo | quarkus-test-openshift/src/main/java/io/quarkus/test/bootstrap/inject/OpenShiftClient.java:271-281 | no-op for a serverless service; otherwise one `oc scale`, a failure when it fails, the replica count when it succeeds |
| Client.OpenShiftClient.Url | quarkus-test-openshift/src/main/java/io/quarkus/test/bootstrap/inject/OpenShiftClient.java:399-416 | serverless: success iff a knative URL exists; otherwise success iff the route and its spec exist, at the route's host with the default port |
| Client.OpenShiftClient.ExecOnPod | quarkus-test-openshift/src/main/java/io/quarkus/test/bootstrap/inject/OpenShiftClient.java:517-528 | one `oc exec` invocation is logged, exactly seven arguments for an empty command, `--` before a non-empty one; it fails exactly when the invocation fails, with that invocation |

## Left out

- Running `oc` and the fabric8/knative API calls: each `oc` invocation is logged and succeeds or fails by the `cli` parameter. The cluster's response to a successful `oc` is modelled as the object it creates: the secret, the route at an assigned host, the replica count, the project. The fabric8 ConfigMap create and edit calls and the secret and route lookups are assumed to succeed: they have no failure path in the model.
- YAML parsing (`loadYaml`) and serialising the enriched list: a foreign library. `EnrichTemplate` works on the parsed objects and returns them.
- `invokeMethod` / `findObjectMethod`: runtime reflection with no behaviour of its own to state.
- `getFilePath` and `getFileContent`: file-system search and classpath loading are the `filePath` and `load` parameters.
- Java hash-map iteration order is the `order` parameter. Every result that depends on it (the order of added volumes and environment variables) is stated in terms of it. The output map and the merged lookups are proved independent of it.
- The volume map is not independent of the `order` parameter: two secrets in one directory share a mount path, and the secret resolved last is the one mounted there (Resolver.LastSecretMounted, Resolver.SharedSecretMountFollowsOrder). The other secret's rewritten value then names a file no volume provides. A resource and a secret in one directory collide the same way: a secret resolved first keeps the resource's ConfigMap volume out (first wins), and a secret resolved after replaces it (last wins). Resolver.MountPathsRecorded states only that some volume is recorded at each mount path. The model keeps this behaviour.
- `isServerlessService`: the knative lookup, with its fallback to "not serverless" on an error, is the `knativeServices` parameter. The knative route's URL, already parsed, is `knativeUrls`.
- Readiness.IsCustomResourceReady: takes the fetched resource; the lookup by name and type and the printing are left out.
- Client.OpenShiftClient.ExecOnPod: returns the argument list and the failure, not the lines the command prints, which are I/O.
- Client.OpenShiftClient.Url: the parsing of the knative URL string is not modelled (`URILike.parse` is a foreign call).
- `String.matches` with the destination matcher is an arbitrary predicate. `String.split` with the split character is a split at one character with trailing empty fields dropped.
- Objects without metadata, and deployment configs without a spec, template or template metadata, are outside the model. A pod template without a labels map is modelled as the failure the code raises.
- `CustomVolume.getVolume()` is not part of this model; a pod volume is the descriptor's name and kind.
- Environment variables with `valueFrom`, and the rest of the Kubernetes object fields, are not modelled.
- `applyServicePropertiesUsingDeploymentConfig`, `rollout`, `apply`, `delete`, `installOperator`, `awaitFor`, `scaleToWhenDcReady`, `followBuildConfigLogs`, `isBuildFailed`, `readyReplicas`, `podsInService`, `logs`, `getEvents`, `getStatus`, `deleteProject`: cluster I/O or time-based polling outside the modelled core.
- Integer widths: ports and replica counts are rendered from unbounded integers; Java's 32-bit `int` is not modelled because no arithmetic is done on them.

=== FILE: client.dfy ===
/**
 * The OpenShift client of the test framework: the cluster objects it
 * creates and changes (ConfigMaps, Secrets, routes, replica counts), the
 * `oc` invocations it makes, and the enrichment of service templates.
 */
module Client {
  import opened Wrappers
  import opened Iteration
  import opened Paths
  import opened PropertySyntax
  import opened Kube
  import opened EnvVars
  import opened Volumes
  import opened Commands
  import opened Resolver
  import opened Template
  import opened Projects
  import opened Readiness

  class OpenShiftClient {
    /** Namespace, value syntax, file access, `oc` outcome and hash-map order. */
    const ctx: Context
    const scenarioId: string
    /** Whether the knative API knows a service of that name; a failing lookup counts as no. */
    const knativeServices: string -> bool
    /** The URL of a knative service's route, when it has one. */
    const knativeUrls: string -> Option<URILike>
    /** The host the cluster assigns to the route `oc expose` creates. */
    const routeHost: string -> string

    var configMaps: map<string, map<string, string>>
    var secrets: set<string>
    var routes: map<string, Route>
    var replicas: map<string, int>
    var commands: seq<seq<string>>

    function Cluster(): ClusterState
      reads this
    {
      ClusterState(configMaps, secrets, commands)
    }

    ghost predicate Valid()
      reads this
    {
      ValidContext(ctx)
    }

    constructor (ctx: Context, scenarioId: string, knativeServices: string -> bool,
                 knativeUrls: string -> Option<URILike>, routeHost: string -> string,
                 configMaps: map<string, map<string, string>>, secrets: set<string>,
                 routes: map<string, Route>, commands: seq<seq<string>>)
      requires ValidContext(ctx)
      ensures Valid()
      ensures this.ctx == ctx && this.scenarioId == scenarioId
      ensures this.knativeServices == knativeServices && this.knativeUrls == knativeUrls && this.routeHost == routeHost
      ensures this.configMaps == configMaps && this.secrets == secrets && this.routes == routes
      ensures this.replicas == map[] && this.commands == commands
    {
      this.ctx := ctx;
      this.scenarioId := scenarioId;
      this.knativeServices := knativeServices;
      this.knativeUrls := knativeUrls;
      this.routeHost := routeHost;
      this.configMaps := configMaps;
      this.secrets := secrets;
      this.routes := routes;
      this.replicas := map[];
      this.commands := commands;
    }

    /**
     * `create`: with ephemeral namespaces the client works in a freshly
     * created project, otherwise in the active namespace of `base`; failing
     * to create a project fails.
     */
    static method Create(base: Context, ephemeral: bool, draws: nat -> int, scenarioId: string,
                         knativeServices: string -> bool, knativeUrls: string -> Option<URILike>,
                         routeHost: string -> string, configMaps: map<string, map<string, string>>,
                         secrets: set<string>, routes: map<string, Route>)
      returns (r: Result<OpenShiftClient, Fault>)
      requires ValidContext(base) && LowerCaseDraws(draws)
      ensures r.Success? ==> fresh(r.value) && r.value.Valid()
      ensures r.Success? ==> r.value.ctx == base.(namespace := r.value.ctx.namespace)
      ensures r.Success? ==> r.value.configMaps == configMaps && r.value.secrets == secrets && r.value.routes == routes
      ensures !ephemeral ==> r.Success? && r.value.ctx == base && r.value.commands == []
      ensures ephemeral && r.Success? ==>
        && 1 <= |r.value.commands| <= ProjectCreationRetries
        && r.value.ctx.namespace == ProjectName(draws, |r.value.commands| - 1)
        && base.cli(NewProjectArgv(r.value.ctx.namespace))
        && (forall i :: 0 <= i < |r.value.commands| ==> r.value.commands[i] == NewProjectArgv(ProjectName(draws, i)))
        && (forall i :: 0 <= i < |r.value.commands| - 1 ==> !base.cli(r.value.commands[i]))
      ensures ephemeral && r.Failure? ==>
        && r.error == ProjectNotCreated
        && forall i :: 0 <= i < ProjectCreationRetries ==> !base.cli(NewProjectArgv(ProjectName(draws, i)))
    {
      var ctx := base;
      var issued: seq<seq<string>> := [];
      if ephemeral {
        var created;
        created, issued := CreateProject(draws, base.cli);
        if created.Failure? {
          return Failure(created.error);
        }
        ctx := base.(namespace := created.value);
      }
      var client := new OpenShiftClient(ctx, scenarioId, knativeServices, knativeUrls, routeHost,
                                        configMaps, secrets, routes, issued);
      r := Success(client);
    }

    /** `createOrUpdateConfigMap`: put an entry into a ConfigMap, creating it when absent. */
    method CreateOrUpdateConfigMap(name: string, key: string, value: string)
      modifies this
      ensures configMaps == CreateOrUpdate(old(configMaps), name, key, value)
      ensures secrets == old(secrets) && commands == old(commands)
      ensures routes == old(routes) && replicas == old(replicas)
    {
      if name in configMaps {
        configMaps := configMaps[name := configMaps[name][key := value]];
      } else {
        configMaps := configMaps[name := map[key := value]];
      }
    }

    /** `doCreateSecretFromFile`: `oc create secret generic` unless the secret exists. */
    method DoCreateSecretFromFile(name: string, filePath: string) returns (fault: Option<Fault>)
      modifies this
      ensures Effect(Cluster(), fault) == CreateSecretFromFile(ctx, old(Cluster()), name, filePath)
      ensures routes == old(routes) && replicas == old(replicas)
    {
      fault := None;
      if name !in secrets {
        var argv := SecretArgv(ctx.namespace, name, filePath);
        commands := commands + [argv];
        if ctx.cli(argv) {
          secrets := secrets + {name};
        } else {
          fault := Some(CommandFailed(argv));
        }
      }
    }

    /** The body of the resolver loop for one property entry. */
    method ResolveProperty(key: string, value: string, volumes: map<string, CustomVolume>, output: map<string, string>)
      returns (newVolumes: map<string, CustomVolume>, newOutput: map<string, string>, fault: Option<Fault>)
      requires Valid()
      modifies this
      ensures Resolution(Cluster(), newVolumes, newOutput, fault)
           == ResolveEntry(ctx, Resolution(old(Cluster()), volumes, output, None), key, value)
      ensures routes == old(routes) && replicas == old(replicas)
    {
      var syn := ctx.syntax;
      newVolumes, newOutput, fault := volumes, output, None;
      var tag := Classify(syn, value);
      if tag == ResourceTag {
        var path := RemoveAll(value, syn.resourcePrefix);
        var mount := MountPath(path);
        var file := FileName(path);
        var cm := NormalizeConfigMapName(mount);
        CreateOrUpdateConfigMap(cm, file, FileContent(ctx, path));
        if mount !in volumes {
          newVolumes := volumes[mount := CustomVolume(cm, "", ConfigMapVolume)];
        }
        newOutput := output[key := mount + [Slash] + file];
      } else if tag == DestinationTag {
        var path := RemoveAll(value, syn.destinationPrefix);
        if !syn.destinationMatcher(value) {
          fault := Some(MalformedDestination(value));
          return;
        }
        var parts := JavaSplit(path, syn.separator);
        if |parts| < 2 {
          fault := Some(DestinationIndexOutOfBounds(value));
          return;
        }
        var dest := parts[0];
        var fileName := parts[1];
        var normalized := FileName(fileName);
        var cm := NormalizeConfigMapName(dest);
        CreateOrUpdateConfigMap(cm, normalized, FileContent(ctx, fileName));
        var rewritten := dest + [Slash] + normalized;
        if dest !in volumes {
          newVolumes := volumes[rewritten := CustomVolume(cm, normalized, ConfigMapVolume)];
        }
        newOutput := output[key := rewritten];
      } else if tag == SecretTag {
        var path := RemoveAll(value, syn.secretPrefix);
        var mount := MountPath(path);
        var file := FileName(path);
        var name := NormalizeConfigMapName(path);
        fault := DoCreateSecretFromFile(name, ctx.filePath(path));
        if fault.Some? {
          return;
        }
        newVolumes := volumes[mount := CustomVolume(name, "", SecretVolume)];
        newOutput := output[key := mount + [Slash] + file];
      } else {
        newOutput := output[key := value];
      }
    }

    /**
     * `enrichProperties`: resolve every property in the map's iteration
     * order, then add every recorded volume to the pod spec and mount it in
     * every container. Returns the rewritten properties and the pod spec.
     */
    method EnrichProperties(properties: map<string, string>, spec: PodSpec)
      returns (output: map<string, string>, mounted: PodSpec, fault: Option<Fault>)
      requires Valid()
      modifies this
      ensures var res := Resolve(ctx, old(Cluster()), properties);
        && Cluster() == res.cluster && fault == res.fault
        && (fault.None? ==> output == res.output && mounted == MountAll(spec, res.volumes, ctx.order(res.volumes.Keys)))
      ensures routes == old(routes) && replicas == old(replicas)
    {
      var keys := ctx.order(properties.Keys);
      assert Enumerates(keys, properties.Keys);
      ghost var c0 := old(Cluster());
      assert Resolve(ctx, c0, properties) == ResolveAll(ctx, Initial(c0), properties, keys);
      var volumes: map<string, CustomVolume> := map[];
      output, mounted, fault := map[], spec, None;
      var i := 0;
      while i < |keys|
        invariant 0 <= i <= |keys|
        invariant ResolveAll(ctx, Initial(c0), properties, keys[..i]) == Resolution(Cluster(), volumes, output, None)
        invariant routes == old(routes) && replicas == old(replicas)
      {
        ResolveAllStep(ctx, Initial(c0), properties, keys, i);
        var v, o, f := ResolveProperty(keys[i], properties[keys[i]], volumes, output);
        if f.Some? {
          FaultIsFinal(ctx, Initial(c0), properties, keys, i + 1);
          fault := f;
          return;
        }
        volumes, output := v, o;
        i := i + 1;
      }
      assert keys[..i] == keys;
      mounted := MountVolumes(spec, volumes, ctx.order(volumes.Keys));
    }

    /** The body of the enrichment loop for one template object. */
    method EnrichObject(service: Service, extra: map<string, string>, obj: Resource)
      returns (out: Resource, fault: Option<Fault>)
      requires Valid()
      modifies this
      ensures var st := EnrichResource(ctx, old(Cluster()), scenarioId, service, extra, obj);
        && Cluster() == st.cluster
        && (fault.None? <==> st.result.Success?)
        && (fault.None? ==> out == st.result.value)
        && (fault.Some? ==> fault.value == st.result.error)
      ensures routes == old(routes) && replicas == old(replicas)
    {
      var meta := Tagged(obj.metadata, ctx.namespace, scenarioId);
      out, fault := obj, None;
      match obj {
        case Other(kind, _) =>
          out := Other(kind, meta);
        case DeploymentConfig(_, template) =>
          if template.metadata.labels.None? {
            fault := Some(MissingTemplateLabels(service.name));
            return;
          }
          var podMeta := template.metadata.(namespace := Some(ctx.namespace),
                                            labels := Some(PodLabels(template.metadata.labels.value, service.name, scenarioId)));
          var output, spec, f := EnrichProperties(service.properties, template.spec);
          if f.Some? {
            fault := f;
            return;
          }
          var props := output + extra;
          var containers := InjectEnv(spec.containers, props, ctx.order(props.Keys));
          out := DeploymentConfig(meta.(name := service.name), PodTemplate(podMeta, spec.(containers := containers)));
      }
    }

    /**
     * `enrichTemplate` on the parsed objects: each object is put into the
     * namespace and tagged; a deployment config is renamed, its pod template
     * labelled, and its containers given the resolved properties, overridden
     * by the extra ones, as environment variables.
     */
    method EnrichTemplate(service: Service, objs: seq<Resource>, extra: map<string, string>)
      returns (enriched: seq<Resource>, fault: Option<Fault>)
      requires Valid()
      modifies this
      ensures var st := EnrichAll(ctx, old(Cluster()), scenarioId, service, extra, objs);
        && Cluster() == st.cluster
        && (fault.None? <==> st.result.Success?)
        && (fault.None? ==> enriched == st.result.value)
        && (fault.Some? ==> fault.value == st.result.error)
      ensures routes == old(routes) && replicas == old(replicas)
    {
      enriched, fault := [], None;
      ghost var c0 := old(Cluster());
      var i := 0;
      while i < |objs|
        invariant 0 <= i <= |objs|
        invariant EnrichAll(ctx, c0, scenarioId, service, extra, objs[..i]) == Step(Cluster(), Success(enriched))
        invariant routes == old(routes) && replicas == old(replicas)
      {
        EnrichAllStep(ctx, c0, scenarioId, service, extra, objs, i);
        var out, f := EnrichObject(service, extra, objs[i]);
        if f.Some? {
          fault := f;
          EnrichFailureIsFinal(ctx, c0, scenarioId, service, extra, objs, i + 1);
          return;
        }
        enriched := enriched + [out];
        i := i + 1;
      }
      assert objs[..i] == objs;
    }

    /**
     * `expose`: nothing happens when the service already has a route;
     * otherwise `oc expose` runs, and on success the cluster has a plain
     * route for the service at its assigned host.
     */
    method Expose(serviceName: string, port: int) returns (fault: Option<Fault>)
      modifies this
      ensures serviceName in old(routes) ==> fault.None? && unchanged(this)
      ensures serviceName !in old(routes) ==>
        var argv := ExposeArgv(ctx.namespace, serviceName, port, scenarioId);
        && commands == old(commands) + [argv]
        && (fault.None? <==> ctx.cli(argv))
        && (fault.None? ==> routes == old(routes)[serviceName := Route(Some(RouteSpec(routeHost(serviceName), None, None)))])
        && (fault.Some? ==> fault.value == CommandFailed(argv) && routes == old(routes))
      ensures configMaps == old(configMaps) && secrets == old(secrets) && replicas == old(replicas)
    {
      fault := None;
      if serviceName in routes {
        return;
      }
      var argv := ExposeArgv(ctx.namespace, serviceName, port, scenarioId);
      commands := commands + [argv];
      if ctx.cli(argv) {
        routes := routes[serviceName := Route(Some(RouteSpec(routeHost(serviceName), None, None)))];
      } else {
        fault := Some(CommandFailed(argv));
      }
    }

    /**
     * `scaleTo`: nothing happens for a serverless service; otherwise
     * `oc scale` runs, and on success the service has that many replicas.
     */
    method ScaleTo(serviceName: string, count: int) returns (fault: Option<Fault>)
      modifies this
      ensures knativeServices(serviceName) ==> fault.None? && unchanged(this)
      ensures !knativeServices(serviceName) ==>
        var argv := ScaleArgv(ctx.namespace, serviceName, count);
        && commands == old(commands) + [argv]
        && (fault.None? <==> ctx.cli(argv))
        && (fault.None? ==> replicas == old(replicas)[serviceName := count])
        && (fault.Some? ==> fault.value == CommandFailed(argv) && replicas == old(replicas))
      ensures configMaps == old(configMaps) && secrets == old(secrets) && routes == old(routes)
    {
      fault := None;
      if knativeServices(serviceName) {
        return;
      }
      var argv := ScaleArgv(ctx.namespace, serviceName, count);
      commands := commands + [argv];
      if ctx.cli(argv) {
        replicas := replicas[serviceName := count];
      } else {
        fault := Some(CommandFailed(argv));
      }
    }

    /**
     * `url`: a serverless service's knative URL, or the URL of the
     * service's route; missing either is a failure.
     */
    function Url(serviceName: string): (r: Result<URILike, Fault>)
      reads this
      ensures knativeServices(serviceName) ==> (r.Success? <==> knativeUrls(serviceName).Some?)
      ensures !knativeServices(serviceName) ==>
        (r.Success? <==> serviceName in routes && routes[serviceName].spec.Some?)
      ensures !knativeServices(serviceName) && r.Success? ==>
        r.value.host == routes[serviceName].spec.value.host && r.value.port == -1
    {
      ServiceUrl(serviceName, knativeServices(serviceName), knativeUrls(serviceName),
                 if serviceName in routes then Some(routes[serviceName]) else None)
    }

    /**
     * `execOnPod`: the `oc exec` invocation for the pod, container and
     * command; a failed invocation is the failure `runAndWait` raises.
     */
    method ExecOnPod(namespace: string, podName: string, containerId: string, input: seq<string>)
      returns (args: seq<string>, fault: Option<Fault>)
      modifies this
      ensures commands == old(commands) + [args]
      ensures |args| >= 7 && args[..2] == [Oc, "exec"]
      ensures ExecTarget(args) == (podName, containerId, namespace)
      ensures ExecCommand(args) == input
      ensures "--" in args[7..] <==> |input| > 0
      ensures |input| == 0 ==> |args| == 7
      ensures fault.None? <==> ctx.cli(args)
      ensures fault.Some? ==> fault.value == CommandFailed(args)
      ensures configMaps == old(configMaps) && secrets == old(secrets)
      ensures routes == old(routes) && replicas == old(replicas)
    {
      args := BuildExecArgs(namespace, podName, containerId, input);
      commands := commands + [args];
      fault := if ctx.cli(args) then None else Some(CommandFailed(args));
    }
  }
}

=== FILE: commands.dfy ===
/**
 * The argument lists of the `oc` invocations the client makes. Running them
 * is outside the model; the client records each list it would run.
 */
module Commands {
  import opened Kube

  /** The command-line binary (`OC`). */
  const Oc: string := "oc"

  /** The number a string of decimal digits denotes, most significant digit first. */
  function DigitsValue(s: string): int
  {
    if |s| == 0 then 0 else 10 * DigitsValue(s[..|s| - 1]) + (s[|s| - 1] as int - '0' as int)
  }

  /** Java's decimal rendering of a natural number: its digits, without leading zeros. */
  function NatToString(n: nat): (s: string)
    ensures |s| >= 1
    ensures forall i :: 0 <= i < |s| ==> '0' <= s[i] <= '9'
    ensures DigitsValue(s) == n
    ensures s[0] != '0' || s == "0"
  {
    var d := [('0' as int + n % 10) as char];
    if n < 10 then
      assert d[..0] == [];
      d
    else
      var high := NatToString(n / 10);
      assert (high + d)[..|high|] == high;
      high + d
  }

  /** Java's decimal rendering of an `int` in string concatenation: a minus sign, then the digits of the magnitude. */
  function IntToString(n: int): (s: string)
    ensures n < 0 ==> |s| >= 2 && s[0] == '-' && DigitsValue(s[1..]) == -n && s[1] != '0'
    ensures n >= 0 ==> |s| >= 1 && DigitsValue(s) == n && (s[0] != '0' || s == "0")
    ensures forall i :: (if n < 0 then 1 else 0) <= i < |s| ==> '0' <= s[i] <= '9'
  {
    if n < 0 then
      var digits := NatToString(-n);
      assert ("-" + digits)[1..] == digits;
      "-" + digits
    else NatToString(n)
  }

  /** `oc create secret generic <name> --from-file=<path> -n <namespace>`. */
  function SecretArgv(namespace: string, name: string, filePath: string): seq<string>
  {
    [Oc, "create", "secret", "generic", name, "--from-file=" + filePath, "-n", namespace]
  }

  /** `oc new-project <name>`. */
  function NewProjectArgv(name: string): seq<string>
  {
    [Oc, "new-project", name]
  }

  /** `oc expose svc/<service> --port=<port> -n <namespace> -lscenarioId=<id>`. */
  function ExposeArgv(namespace: string, serviceName: string, port: int, scenarioId: string): seq<string>
  {
    [Oc, "expose", "svc/" + serviceName, "--port=" + IntToString(port), "-n", namespace,
     "-l" + LabelScenarioId + "=" + scenarioId]
  }

  /** `oc scale dc/<service> --replicas=<n> -n <namespace>`. */
  function ScaleArgv(namespace: string, serviceName: string, replicas: int): seq<string>
  {
    [Oc, "scale", "dc/" + serviceName, "--replicas=" + IntToString(replicas), "-n", namespace]
  }

  /** The pod, container and namespace an `oc exec` argument list addresses. */
  function ExecTarget(args: seq<string>): (string, string, string)
    requires |args| >= 7
  {
    (args[2], args[4], args[6])
  }

  /** The command an `oc exec` argument list runs in the pod: what follows `--`, if anything. */
  function ExecCommand(args: seq<string>): seq<string>
    requires |args| >= 7
  {
    if |args| > 7 && args[7] == "--" then args[8..] else []
  }

  /**
   * `execOnPod`'s argument list: `oc exec <pod> -c <container> -n <namespace>`,
   * followed by `--` and the command only when the command is non-empty. The
   * target and the command can be read back from the list.
   */
  method BuildExecArgs(namespace: string, podName: string, containerId: string, input: seq<string>)
    returns (args: seq<string>)
    ensures |args| >= 7 && args[..2] == [Oc, "exec"] && args[3] == "-c" && args[5] == "-n"
    ensures ExecTarget(args) == (podName, containerId, namespace)
    ensures ExecCommand(args) == input
    ensures "--" in args[7..] <==> |input| > 0
    ensures |input| == 0 ==> |args| == 7
    ensures |input| > 0 ==> |args| == 8 + |input|
  {
    args := [Oc, "exec", podName, "-c", containerId, "-n", namespace];
    if |input| > 0 {
      args := args + ["--"];
      args := args + input;
      assert args[7] == "--";
    }
  }
}

=== FILE: env_vars.dfy ===
/**
 * Environment variables of a container: finding a variable by name and
 * setting a value, updating the first variable of that name in place or
 * appending a new one.
 */
module EnvVars {
  import opened Wrappers
  import opened Kube
  import opened Iteration

  /** `getEnvVarByKey`: the position of the first variable named `key`, if any. */
  function EnvVarByKey(env: seq<EnvVar>, key: string): (r: Option<nat>)
    ensures r.Some? ==> r.value < |env| && env[r.value].name == key
    ensures r.Some? ==> forall j :: 0 <= j < r.value ==> env[j].name != key
    ensures r.None? ==> forall j :: 0 <= j < |env| ==> env[j].name != key
  {
    if |env| == 0 then None
    else if env[0].name == key then Some(0)
    else
      match EnvVarByKey(env[1..], key)
      case None => None
      case Some(i) => Some(i + 1)
  }

  /** The value of the first variable named `key`, which is what the container sees. */
  function Lookup(env: seq<EnvVar>, key: string): Option<string>
  {
    match EnvVarByKey(env, key)
    case None => None
    case Some(i) => Some(env[i].value)
  }

  predicate NoDuplicateNames(env: seq<EnvVar>)
  {
    forall i, j :: 0 <= i < j < |env| ==> env[i].name != env[j].name
  }

  /** Two lists whose names agree up to the length of the first, and whose extra names are not `key`, find `key` at the same place. */
  lemma SameNamesSamePosition(a: seq<EnvVar>, b: seq<EnvVar>, key: string)
    requires |a| <= |b|
    requires forall j :: 0 <= j < |a| ==> a[j].name == b[j].name
    requires forall j :: |a| <= j < |b| ==> b[j].name != key
    ensures EnvVarByKey(a, key) == EnvVarByKey(b, key)
  {
    var ra, rb := EnvVarByKey(a, key), EnvVarByKey(b, key);
    if ra.Some? {
      assert b[ra.value].name == key;
    }
    if rb.Some? {
      assert rb.value < |a|;
      assert a[rb.value].name == key;
    }
  }

  /** Where `b` extends the names of `a`, a first occurrence in `b` inside `a`'s range is the first occurrence in `a`. */
  lemma FirstPositionInPrefix(a: seq<EnvVar>, b: seq<EnvVar>, key: string)
    requires |a| <= |b|
    requires forall j :: 0 <= j < |a| ==> a[j].name == b[j].name
    requires EnvVarByKey(b, key).Some? && EnvVarByKey(b, key).value < |a|
    ensures EnvVarByKey(a, key) == EnvVarByKey(b, key)
  {
    var i := EnvVarByKey(b, key).value;
    assert a[i].name == key;
  }

  /**
   * One property of the env-var merge: the first variable named `key` gets
   * the value; when there is none, a new variable is appended.
   */
  function SetEnv(env: seq<EnvVar>, key: string, value: string): (r: seq<EnvVar>)
    ensures |env| <= |r| <= |env| + 1
    ensures forall j :: 0 <= j < |env| ==> r[j].name == env[j].name
    ensures forall j :: 0 <= j < |env| && r[j] != env[j] ==> EnvVarByKey(env, key) == Some(j)
    ensures |r| == |env| + 1 <==> Lookup(env, key).None?
    ensures |r| == |env| + 1 ==> r[|env|] == EnvVar(key, value)
    ensures Lookup(r, key) == Some(value)
    ensures forall k :: k != key ==> Lookup(r, k) == Lookup(env, k)
    ensures NoDuplicateNames(env) ==> NoDuplicateNames(r)
  {
    match EnvVarByKey(env, key)
    case None =>
      var r := env + [EnvVar(key, value)];
      forall k | k != key
        ensures Lookup(r, k) == Lookup(env, k)
      {
        SameNamesSamePosition(env, r, k);
      }
      assert r[|env|].name == key;
      r
    case Some(i) =>
      var r := env[i := env[i].(value := value)];
      forall k
        ensures EnvVarByKey(r, k) == EnvVarByKey(env, k)
      {
        SameNamesSamePosition(env, r, k);
      }
      r
  }

  /** The merge of `props` into `env`, one key after another in the order of `keys`. */
  function MergedEnv(env: seq<EnvVar>, props: map<string, string>, keys: seq<string>): (r: seq<EnvVar>)
    requires forall k :: k in keys ==> k in props
    ensures |env| <= |r| <= |env| + |keys|
    ensures forall j :: 0 <= j < |env| ==> r[j].name == env[j].name
  {
    if |keys| == 0 then env
    else
      var last := keys[|keys| - 1];
      SetEnv(MergedEnv(env, props, keys[..|keys| - 1]), last, props[last])
  }

  /** After the merge, every merged key reads its property value and every other key reads what it read before. */
  lemma {:induction false} MergedEnvLookup(env: seq<EnvVar>, props: map<string, string>, keys: seq<string>)
    requires forall k :: k in keys ==> k in props
    requires Distinct(keys)
    ensures forall k :: k in keys ==> Lookup(MergedEnv(env, props, keys), k) == Some(props[k])
    ensures forall k :: k !in keys ==> Lookup(MergedEnv(env, props, keys), k) == Lookup(env, k)
  {
    if |keys| > 0 {
      var init := keys[..|keys| - 1];
      var last := keys[|keys| - 1];
      DistinctInit(keys);
      MergedEnvLookup(env, props, init);
      forall k | k in keys && k != last
        ensures k in init
      {
      }
    }
  }

  /**
   * The variables already present keep their names and places, those whose
   * name is not merged are untouched, only the first variable of a merged
   * name changes, and appended variables carry merged names that had no
   * variable before.
   */
  lemma MergedEnvShape(env: seq<EnvVar>, props: map<string, string>, keys: seq<string>)
    requires forall k :: k in keys ==> k in props
    requires Distinct(keys)
    ensures var r := MergedEnv(env, props, keys);
      && |env| <= |r|
      && (forall j :: 0 <= j < |env| ==> r[j].name == env[j].name)
      && (forall j :: 0 <= j < |env| && env[j].name !in keys ==> r[j] == env[j])
      && (forall j :: 0 <= j < |env| && r[j] != env[j] ==> EnvVarByKey(env, env[j].name) == Some(j))
      && (forall j :: |env| <= j < |r| ==> r[j].name in keys && Lookup(env, r[j].name).None?)
  {
    MergedEnvExisting(env, props, keys);
    MergedEnvAppended(env, props, keys);
  }

  /** The variables already present keep their names and places; only the first variable of a merged name changes. */
  lemma {:induction false} MergedEnvExisting(env: seq<EnvVar>, props: map<string, string>, keys: seq<string>)
    requires forall k :: k in keys ==> k in props
    ensures var r := MergedEnv(env, props, keys);
      && |env| <= |r|
      && (forall j :: 0 <= j < |env| ==> r[j].name == env[j].name)
      && (forall j :: 0 <= j < |env| && env[j].name !in keys ==> r[j] == env[j])
      && (forall j :: 0 <= j < |env| && r[j] != env[j] ==> EnvVarByKey(env, env[j].name) == Some(j))
  {
    if |keys| > 0 {
      var init := keys[..|keys| - 1];
      var last := keys[|keys| - 1];
      MergedEnvExisting(env, props, init);
      var m := MergedEnv(env, props, init);
      var r := SetEnv(m, last, props[last]);
      forall j | 0 <= j < |env| && env[j].name !in keys
        ensures r[j] == env[j]
      {
        assert env[j].name !in init;
      }
      forall j | 0 <= j < |env| && r[j] != env[j]
        ensures EnvVarByKey(env, env[j].name) == Some(j)
      {
        if m[j] == env[j] {
          assert EnvVarByKey(m, last) == Some(j);
          FirstPositionInPrefix(env, m, last);
        }
      }
    }
  }

  /** Appended variables carry merged names that had no variable before. */
  lemma {:induction false} MergedEnvAppended(env: seq<EnvVar>, props: map<string, string>, keys: seq<string>)
    requires forall k :: k in keys ==> k in props
    requires Distinct(keys)
    ensures var r := MergedEnv(env, props, keys);
      forall j :: |env| <= j < |r| ==> r[j].name in keys && Lookup(env, r[j].name).None?
  {
    if |keys| > 0 {
      var init := keys[..|keys| - 1];
      var last := keys[|keys| - 1];
      DistinctInit(keys);
      MergedEnvAppended(env, props, init);
      MergedEnvLookup(env, props, init);
      MergedEnvExisting(env, props, init);
      var m := MergedEnv(env, props, init);
      var r := SetEnv(m, last, props[last]);
      forall j | |env| <= j < |r|
        ensures r[j].name in keys && Lookup(env, r[j].name).None?
      {
        if j < |m| {
          assert r[j].name == m[j].name;
          assert m[j].name in init;
        } else {
          assert r[j].name == last && Lookup(m, last).None?;
        }
      }
    }
  }

  /** The merge introduces no duplicate names into a list that had none. */
  lemma {:induction false} MergedEnvNoDuplicates(env: seq<EnvVar>, props: map<string, string>, keys: seq<string>)
    requires forall k :: k in keys ==> k in props
    requires NoDuplicateNames(env)
    ensures NoDuplicateNames(MergedEnv(env, props, keys))
  {
    if |keys| > 0 {
      MergedEnvNoDuplicates(env, props, keys[..|keys| - 1]);
    }
  }

  /** The merge of one container's variables, `envVar.setValue` or `env.add` per key. */
  method MergeEnv(env: seq<EnvVar>, props: map<string, string>, keys: seq<string>) returns (merged: seq<EnvVar>)
    requires forall k :: k in keys ==> k in props
    ensures merged == MergedEnv(env, props, keys)
  {
    merged := env;
    for i := 0 to |keys|
      invariant merged == MergedEnv(env, props, keys[..i])
    {
      var key := keys[i];
      assert keys[..i + 1][..i] == keys[..i];
      var found := EnvVarByKey(merged, key);
      if found.None? {
        merged := merged + [EnvVar(key, props[key])];
      } else {
        merged := merged[found.value := merged[found.value].(value := props[key])];
      }
    }
    assert keys[..|keys|] == keys;
  }

  /** Every container with `props` merged into its variables. */
  function WithEnv(containers: seq<Container>, props: map<string, string>, keys: seq<string>): seq<Container>
    requires forall k :: k in keys ==> k in props
  {
    seq(|containers|, j requires 0 <= j < |containers| => containers[j].(env := MergedEnv(containers[j].env, props, keys)))
  }

  /**
   * In every container, each merged key reads its property value and every
   * other name reads what it read before; the container's name and mounts
   * are untouched.
   */
  lemma WithEnvLookup(containers: seq<Container>, props: map<string, string>, keys: seq<string>)
    requires forall k :: k in keys ==> k in props
    requires Distinct(keys)
    ensures var r := WithEnv(containers, props, keys);
      && |r| == |containers|
      && (forall j :: 0 <= j < |r| ==>
            r[j].name == containers[j].name && r[j].volumeMounts == containers[j].volumeMounts)
      && (forall j, k :: 0 <= j < |r| && k in keys ==> Lookup(r[j].env, k) == Some(props[k]))
      && (forall j, k :: 0 <= j < |r| && k !in keys ==> Lookup(r[j].env, k) == Lookup(containers[j].env, k))
  {
    forall j | 0 <= j < |containers|
      ensures forall k :: k in keys ==> Lookup(MergedEnv(containers[j].env, props, keys), k) == Some(props[k])
      ensures forall k :: k !in keys ==> Lookup(MergedEnv(containers[j].env, props, keys), k) == Lookup(containers[j].env, k)
    {
      MergedEnvLookup(containers[j].env, props, keys);
    }
  }

  /** The merge applied to each container of a pod template, in turn. */
  method InjectEnv(containers: seq<Container>, props: map<string, string>, keys: seq<string>) returns (r: seq<Container>)
    requires forall k :: k in keys ==> k in props
    ensures r == WithEnv(containers, props, keys)
  {
    r := containers;
    for j := 0 to |containers|
      invariant |r| == |containers|
      invariant forall i :: 0 <= i < j ==> r[i] == containers[i].(env := MergedEnv(containers[i].env, props, keys))
      invariant forall i :: j <= i < |r| ==> r[i] == containers[i]
    {
      var env := MergeEnv(r[j].env, props, keys);
      r := r[j := r[j].(env := env)];
    }
  }
}

=== FILE: iteration.dfy ===
/**
 * Iteration order of Java hash maps.
 *
 * `HashMap.entrySet()` visits every key exactly once, in an order the
 * program does not control. The model represents that order by a sequence
 * of keys that enumerates the key set: every key once, nothing else.
 */
module Iteration {

  predicate Distinct(keys: seq<string>)
  {
    forall i, j :: 0 <= i < j < |keys| ==> keys[i] != keys[j]
  }

  predicate Enumerates(keys: seq<string>, s: set<string>)
  {
    && (forall k :: k in keys ==> k in s)
    && (forall k :: k in s ==> k in keys)
    && Distinct(keys)
  }

  /** Dropping the last key of a distinct sequence leaves a distinct sequence without that key. */
  lemma DistinctInit(keys: seq<string>)
    requires |keys| > 0 && Distinct(keys)
    ensures Distinct(keys[..|keys| - 1])
    ensures keys[|keys| - 1] !in keys[..|keys| - 1]
  {
  }
}

=== FILE: kube.dfy ===
/**
 * The Kubernetes/OpenShift objects the client reads and rewrites, reduced
 * to the fields its enrichment logic touches, and the failures it raises.
 */
module Kube {
  import opened Wrappers

  /** Label whose value is the service name, used to find a service's pods (`LABEL_TO_WATCH_FOR_LOGS`). */
  const LabelToWatchForLogs: string := "tsLogWatch"

  /** Label carrying the scenario id, put on every object created by one test run (`LABEL_SCENARIO_ID`). */
  const LabelScenarioId: string := "scenarioId"

  datatype EnvVar = EnvVar(name: string, value: string)

  /** A container's volume mount; `subPathExpr` is absent unless set. */
  datatype VolumeMount = VolumeMount(name: string, readOnly: bool, mountPath: string, subPathExpr: Option<string>)

  datatype Container = Container(name: string, env: seq<EnvVar>, volumeMounts: seq<VolumeMount>)

  datatype VolumeKind = ConfigMapVolume | SecretVolume

  /**
   * The resolver's volume descriptor: the backing object's name, a sub-path
   * expression (the empty string for none) and whether a ConfigMap or a
   * Secret backs it.
   */
  datatype CustomVolume = CustomVolume(name: string, subFolderRegExp: string, kind: VolumeKind)

  /** A pod volume: its name and the kind of object backing it. */
  datatype Volume = Volume(name: string, kind: VolumeKind)

  datatype PodSpec = PodSpec(containers: seq<Container>, volumes: seq<Volume>)

  /** Object metadata; `labels` is absent when the template gives none. */
  datatype Metadata = Metadata(name: string, namespace: Option<string>, labels: Option<map<string, string>>)

  datatype PodTemplate = PodTemplate(metadata: Metadata, spec: PodSpec)

  /** A parsed template object: a deployment config with its pod template, or any other kind. */
  datatype Resource =
    | DeploymentConfig(metadata: Metadata, template: PodTemplate)
    | Other(kind: string, metadata: Metadata)

  /** A service under test: its name and its configuration properties. */
  datatype Service = Service(name: string, properties: map<string, string>)

  /** What makes an operation abort the test scenario. */
  datatype Fault =
      /** A resource-with-destination value the matcher rejects. */
    | MalformedDestination(value: string)
      /** A resource-with-destination value whose split has no first or second field. */
    | DestinationIndexOutOfBounds(value: string)
      /** An `oc` invocation that failed. */
    | CommandFailed(argv: seq<string>)
      /** A deployment config whose pod template has no labels map. */
    | MissingTemplateLabels(name: string)
      /** No route, or a route without a spec, for the service. */
    | RouteNotFound(serviceName: string)
      /** No knative route for a serverless service. */
    | KnativeRouteNotFound(serviceName: string)
      /** Every attempt to create an ephemeral project failed. */
    | ProjectNotCreated
}

=== FILE: paths.dfy ===
/**
 * Path and name helpers of OpenShiftClient: splitting a resource path into
 * the directory it is mounted at and the file name inside it, and turning a
 * path into a Kubernetes object name.
 */
module Paths {

  /** The path separator (`SLASH`). */
  const Slash: char := '/'

  /** Where files are mounted when the path names no directory (`RESOURCE_MNT_FOLDER`). */
  const ResourceMountFolder: string := "/resources"

  /** `String.lastIndexOf`: the position of the last `c` in `s`, or -1. */
  function LastIndexOf(s: string, c: char): (i: int)
    ensures -1 <= i < |s|
    ensures i == -1 <==> c !in s
    ensures 0 <= i ==> s[i] == c && c !in s[i + 1..]
  {
    if |s| == 0 then -1
    else if s[|s| - 1] == c then |s| - 1
    else
      var i := LastIndexOf(s[..|s| - 1], c);
      assert s[..|s| - 1] + [s[|s| - 1]] == s;
      assert i >= 0 ==> s[i + 1..] == s[..|s| - 1][i + 1..] + [s[|s| - 1]];
      i
  }

  /** The directory part of a path: everything before its last slash (empty when it has none). */
  function DirPart(path: string): string
  {
    if Slash !in path then "" else path[..LastIndexOf(path, Slash)]
  }

  /** `getFileName`: what follows the last slash, or the whole path when there is none. */
  function FileName(path: string): (name: string)
    ensures Slash !in name
    ensures |name| <= |path| && name == path[|path| - |name|..]
    ensures Slash !in path ==> name == path
  {
    if Slash !in path then path else path[LastIndexOf(path, Slash) + 1..]
  }

  /**
   * `getMountPath`: the directory part, defaulting to `/resources` when the
   * path has no slash or an empty directory part, with a leading slash added
   * when the path does not start with one.
   */
  function MountPath(path: string): (mount: string)
    ensures |mount| > 0 && mount[0] == Slash
    ensures Slash !in path ==> mount == ResourceMountFolder
  {
    if Slash !in path then ResourceMountFolder
    else
      var dir := path[..LastIndexOf(path, Slash)];
      var mount := if dir == "" then ResourceMountFolder else dir;
      if path[0] != Slash then [Slash] + mount else mount
  }

  /** The last slash of `dir/file` is the one after `dir` when `file` has none. */
  lemma {:induction false} LastSlashAt(dir: string, file: string)
    requires Slash !in file
    ensures LastIndexOf(dir + [Slash] + file, Slash) == |dir|
    decreases |file|
  {
    var s := dir + [Slash] + file;
    if |file| > 0 {
      var init := file[..|file| - 1];
      assert s[..|s| - 1] == dir + [Slash] + init;
      assert s[|s| - 1] == file[|file| - 1];
      LastSlashAt(dir, init);
    }
  }

  /** `dir/file`, with a non-empty `dir` and no slash in `file`, is mounted at `dir` (made absolute) as `file`. */
  lemma DirAndFile(dir: string, file: string)
    requires Slash !in file && dir != ""
    ensures FileName(dir + [Slash] + file) == file
    ensures MountPath(dir + [Slash] + file) == if dir[0] == Slash then dir else [Slash] + dir
  {
    var s := dir + [Slash] + file;
    LastSlashAt(dir, file);
    assert s[..|dir|] == dir;
    assert s[|dir| + 1..] == file;
  }

  /** A path with a non-empty directory part is its mount path, a slash and its file name (up to a leading slash). */
  lemma MountPathRejoins(path: string)
    requires Slash in path && DirPart(path) != ""
    ensures MountPath(path) + [Slash] + FileName(path) == (if path[0] == Slash then path else [Slash] + path)
  {
    var i := LastIndexOf(path, Slash);
    var dir := path[..i];
    var file := path[i + 1..];
    assert path == dir + [Slash] + file;
    DirAndFile(dir, file);
    assert dir[0] == path[0];
    if path[0] != Slash {
      assert [Slash] + dir + [Slash] + file == [Slash] + (dir + [Slash] + file);
    }
  }

  /** A path whose only slash is its first character is mounted under `/resources`. */
  lemma RootFileMountsUnderResources(path: string)
    requires Slash in path && DirPart(path) == ""
    ensures MountPath(path) == ResourceMountFolder
    ensures path == [Slash] + FileName(path)
  {
    var i := LastIndexOf(path, Slash);
    assert i == 0;
    assert path == [path[0]] + path[1..];
  }

  /** Dots and slashes become dashes; every other character stays. */
  function Dashed(s: string): (r: string)
    ensures |r| == |s|
    ensures '.' !in r && Slash !in r
    ensures forall i :: 0 <= i < |s| ==> r[i] == (if s[i] == '.' || s[i] == Slash then '-' else s[i])
  {
    if |s| == 0 then ""
    else [if s[0] == '.' || s[0] == Slash then '-' else s[0]] + Dashed(s[1..])
  }

  /** `normalizeConfigMapName`: drop one leading slash, then replace every dot and slash by a dash. */
  function NormalizeConfigMapName(name: string): (r: string)
    ensures '.' !in r && Slash !in r
    ensures |r| == if |name| > 0 && name[0] == Slash then |name| - 1 else |name|
  {
    Dashed(if |name| > 0 && name[0] == Slash then name[1..] else name)
  }
}

=== FILE: projects.dfy ===
/**
 * Ephemeral project creation (`createProject`, `generateRandomProjectName`):
 * a project named `ts-` followed by ten random lower-case letters is
 * requested with `oc new-project`, with a fresh name after each failure, at
 * most five times.
 */
module Projects {
  import opened Wrappers
  import opened Kube
  import opened Commands

  /** Number of random letters in a project name (`PROJECT_NAME_SIZE`). */
  const ProjectNameSize: nat := 10

  /** How many times creation is attempted (`PROJECT_CREATION_RETRIES`). */
  const ProjectCreationRetries: nat := 5

  const ProjectNamePrefix: string := "ts-"

  /** The random source: every draw is a code point between `a` and `z`. */
  ghost predicate LowerCaseDraws(draws: nat -> int)
  {
    forall i: nat :: 'a' as int <= draws(i) <= 'z' as int
  }

  /** The `n`-th generated name, built from draws `10 n` to `10 n + 9`. */
  function ProjectName(draws: nat -> int, n: nat): (name: string)
    requires LowerCaseDraws(draws)
    ensures |name| == |ProjectNamePrefix| + ProjectNameSize
    ensures name[..|ProjectNamePrefix|] == ProjectNamePrefix
    ensures forall i :: |ProjectNamePrefix| <= i < |name| ==> 'a' <= name[i] <= 'z'
    ensures forall i :: |ProjectNamePrefix| <= i < |name| ==> name[i] as int == draws(ProjectNameSize * n + i - |ProjectNamePrefix|)
  {
    ProjectNamePrefix + seq(ProjectNameSize, i requires 0 <= i < ProjectNameSize => draws(ProjectNameSize * n + i) as char)
  }

  /**
   * `createProject`: the `oc new-project` invocations issued, in order, and
   * the name of the project created. The attempts use the generated names in
   * order; creation stops at the first success and gives up after five
   * failures.
   */
  method CreateProject(draws: nat -> int, cli: seq<string> -> bool) returns (r: Result<string, Fault>, issued: seq<seq<string>>)
    requires LowerCaseDraws(draws)
    ensures 1 <= |issued| <= ProjectCreationRetries
    ensures forall i :: 0 <= i < |issued| ==> issued[i] == NewProjectArgv(ProjectName(draws, i))
    ensures forall i :: 0 <= i < |issued| - 1 ==> !cli(issued[i])
    ensures r.Success? <==> cli(issued[|issued| - 1])
    ensures r.Success? ==> r.value == ProjectName(draws, |issued| - 1)
    ensures r.Failure? ==> r.error == ProjectNotCreated && |issued| == ProjectCreationRetries
  {
    var namespace := ProjectName(draws, 0);
    var index := 0;
    var created := false;
    issued := [];
    while index < ProjectCreationRetries
      invariant 0 <= index <= ProjectCreationRetries && !created
      invariant |issued| == index && namespace == ProjectName(draws, index)
      invariant forall i :: 0 <= i < index ==> issued[i] == NewProjectArgv(ProjectName(draws, i)) && !cli(issued[i])
    {
      issued := issued + [NewProjectArgv(namespace)];
      if cli(NewProjectArgv(namespace)) {
        created := true;
        break;
      }
      namespace := ProjectName(draws, index + 1);
      index := index + 1;
    }
    if !created {
      return Failure(ProjectNotCreated), issued;
    }
    r := Success(namespace);
  }
}

=== FILE: property_syntax.dfy ===
/**
 * The ad-hoc syntax of property values: the three reserved prefixes, the
 * separator of a `destinationPath|fileName` pair, and the two Java string
 * operations the resolver applies to values (`String.replace` and
 * `String.split`).
 */
module PropertySyntax {

  /**
   * The constants the resolver reads from its properties utility class,
   * whose values the model leaves open: the three prefixes, the separator
   * character of a destination pair and the whole-value matcher a
   * resource-with-destination value must satisfy.
   */
  datatype Syntax = Syntax(
    resourcePrefix: string,
    destinationPrefix: string,
    secretPrefix: string,
    separator: char,
    destinationMatcher: string -> bool)

  /** The prefixes are non-empty and pairwise distinct. */
  predicate ValidSyntax(syn: Syntax)
  {
    && |syn.resourcePrefix| > 0
    && |syn.destinationPrefix| > 0
    && |syn.secretPrefix| > 0
    && syn.resourcePrefix != syn.destinationPrefix
    && syn.resourcePrefix != syn.secretPrefix
    && syn.destinationPrefix != syn.secretPrefix
  }

  predicate StartsWith(s: string, p: string)
  {
    |p| <= |s| && s[..|p|] == p
  }

  /** How a value is tagged. */
  datatype Tag = ResourceTag | DestinationTag | SecretTag | LiteralTag

  /**
   * `isResource`, then `isResourceWithDestinationPath`, then `isSecret`,
   * checked in that order: the first prefix the value starts with wins.
   */
  function Classify(syn: Syntax, value: string): (t: Tag)
    ensures t == LiteralTag <==>
      !StartsWith(value, syn.resourcePrefix) && !StartsWith(value, syn.destinationPrefix) && !StartsWith(value, syn.secretPrefix)
    ensures t == ResourceTag <==> StartsWith(value, syn.resourcePrefix)
    ensures t == DestinationTag ==> StartsWith(value, syn.destinationPrefix)
    ensures t == SecretTag ==> StartsWith(value, syn.secretPrefix) && !StartsWith(value, syn.destinationPrefix)
  {
    if StartsWith(value, syn.resourcePrefix) then ResourceTag
    else if StartsWith(value, syn.destinationPrefix) then DestinationTag
    else if StartsWith(value, syn.secretPrefix) then SecretTag
    else LiteralTag
  }

  /** `t` occurs in `s` at position `i`. */
  predicate OccursAt(t: string, s: string, i: int)
  {
    0 <= i <= |s| - |t| && s[i..i + |t|] == t
  }

  /** `t` occurs somewhere in `s`. */
  ghost predicate Occurs(t: string, s: string)
  {
    exists i :: OccursAt(t, s, i)
  }

  /**
   * `s.replace(t, "")`: scanning from the left, every non-overlapping
   * occurrence of `t` is removed, not only a leading one.
   */
  function RemoveAll(s: string, t: string): (r: string)
    requires |t| > 0
    ensures |r| <= |s|
    decreases |s|
  {
    if |s| < |t| then s
    else if s[..|t|] == t then RemoveAll(s[|t|..], t)
    else [s[0]] + RemoveAll(s[1..], t)
  }

  /** A string without an occurrence of `t` is left as it is. */
  lemma {:induction false} RemoveAllWithoutOccurrence(s: string, t: string)
    requires |t| > 0 && !Occurs(t, s)
    ensures RemoveAll(s, t) == s
    decreases |s|
  {
    if |s| >= |t| {
      assert !OccursAt(t, s, 0);
      if Occurs(t, s[1..]) {
        var i :| OccursAt(t, s[1..], i);
        assert s[1..][i..i + |t|] == s[i + 1..i + 1 + |t|];
        assert OccursAt(t, s, i + 1);
      }
      RemoveAllWithoutOccurrence(s[1..], t);
    }
  }

  /** Removing the prefix from prefix-plus-rest is removing it from the rest. */
  lemma RemoveAllLeading(t: string, rest: string)
    requires |t| > 0
    ensures RemoveAll(t + rest, t) == RemoveAll(rest, t)
  {
    assert (t + rest)[..|t|] == t;
    assert (t + rest)[|t|..] == rest;
  }

  /** The value the resolver sees for a tagged property whose path never repeats the prefix. */
  lemma StrippedPath(t: string, path: string)
    requires |t| > 0 && !Occurs(t, path)
    ensures RemoveAll(t + path, t) == path
  {
    RemoveAllLeading(t, path);
    RemoveAllWithoutOccurrence(path, t);
  }

  /** A second copy of the prefix is removed too: `t + t + rest` yields what `rest` yields. */
  lemma RepeatedPrefixRemoved(t: string, rest: string)
    requires |t| > 0
    ensures RemoveAll(t + t + rest, t) == RemoveAll(rest, t)
  {
    RemoveAllLeading(t, t + rest);
    RemoveAllLeading(t, rest);
    assert t + t + rest == t + (t + rest);
  }

  /** The separator-delimited fields of `s`, empty ones included. */
  function Fields(s: string, sep: char): (fs: seq<string>)
    ensures |fs| >= 1
    ensures forall i :: 0 <= i < |fs| ==> sep !in fs[i]
    decreases |s|
  {
    if |s| == 0 then [""]
    else if s[0] == sep then [""] + Fields(s[1..], sep)
    else
      var rest := Fields(s[1..], sep);
      [[s[0]] + rest[0]] + rest[1..]
  }

  /** Drop the empty fields at the end. */
  function StripTrailingEmpty(fs: seq<string>): (r: seq<string>)
    ensures |r| <= |fs| && r == fs[..|r|]
    ensures |r| > 0 ==> r[|r| - 1] != ""
    ensures forall i :: |r| <= i < |fs| ==> fs[i] == ""
  {
    if |fs| > 0 && fs[|fs| - 1] == "" then StripTrailingEmpty(fs[..|fs| - 1]) else fs
  }

  /**
   * `s.split(sep)` with a one-character separator: the string itself when
   * the separator does not occur, otherwise its fields with trailing empty
   * fields removed.
   */
  function JavaSplit(s: string, sep: char): (parts: seq<string>)
    ensures sep !in s ==> parts == [s]
    ensures sep in s ==> |parts| <= |Fields(s, sep)| && parts == Fields(s, sep)[..|parts|] && (|parts| > 0 ==> parts[|parts| - 1] != "")
    ensures sep in s ==> forall i :: |parts| <= i < |Fields(s, sep)| ==> Fields(s, sep)[i] == ""
  {
    if sep !in s then [s] else StripTrailingEmpty(Fields(s, sep))
  }

  /** A string without the separator is a single field. */
  lemma {:induction false} FieldsWithoutSeparator(s: string, sep: char)
    requires sep !in s
    ensures Fields(s, sep) == [s]
    decreases |s|
  {
    if |s| > 0 {
      FieldsWithoutSeparator(s[1..], sep);
      assert [s[0]] + s[1..] == s;
    }
  }

  /** A separator after a separator-free head splits the head off as the first field. */
  lemma {:induction false} FieldsAfterHead(a: string, sep: char, b: string)
    requires sep !in a
    ensures Fields(a + [sep] + b, sep) == [a] + Fields(b, sep)
    decreases |a|
  {
    if |a| == 0 {
      assert a + [sep] + b == [sep] + b;
      assert ([sep] + b)[1..] == b;
    } else {
      assert (a + [sep] + b)[1..] == a[1..] + [sep] + b;
      FieldsAfterHead(a[1..], sep, b);
      assert [a[0]] + a[1..] == a;
    }
  }

  /** A well-formed `destinationPath|fileName` pair splits into exactly its two halves. */
  lemma SplitPair(a: string, sep: char, b: string)
    requires sep !in a && sep !in b && b != ""
    ensures JavaSplit(a + [sep] + b, sep) == [a, b]
  {
    FieldsAfterHead(a, sep, b);
    FieldsWithoutSeparator(b, sep);
    assert (a + [sep] + b)[|a|] == sep;
  }

  /** A value without the separator splits into one field, so asking for a second one fails. */
  lemma SplitWithoutSeparator(s: string, sep: char)
    requires sep !in s
    ensures |JavaSplit(s, sep)| == 1
  {
  }
}

=== FILE: readiness.dfy ===
/**
 * Small decision rules of the client: whether a custom resource reports
 * itself ready, and which URL a service is reached at.
 */
module Readiness {
  import opened Wrappers
  import opened Kube

  /** The condition type that signals readiness (`CUSTOM_RESOURCE_EXPECTED_TYPE`). */
  const ExpectedType: string := "Ready"

  /** The condition status that signals readiness (`CUSTOM_RESOURCE_EXPECTED_STATUS`). */
  const ExpectedStatus: string := "True"

  /** A status condition; type and status may be missing. */
  datatype Condition = Condition(condType: Option<string>, status: Option<string>)

  datatype CustomResourceStatus = CustomResourceStatus(conditions: Option<seq<Condition>>)

  datatype CustomResource = CustomResource(name: string, status: Option<CustomResourceStatus>)

  predicate IsReadyCondition(c: Condition)
  {
    c.condType == Some(ExpectedType) && c.status == Some(ExpectedStatus)
  }

  /** `anyMatch` over the conditions. */
  function AnyReady(conditions: seq<Condition>): (b: bool)
    ensures b <==> exists i :: 0 <= i < |conditions| && IsReadyCondition(conditions[i])
  {
    if |conditions| == 0 then false
    else if IsReadyCondition(conditions[0]) then true
    else
      var rest := AnyReady(conditions[1..]);
      assert forall i :: 1 <= i < |conditions| ==> conditions[i] == conditions[1..][i - 1];
      rest
  }

  /**
   * `isCustomResourceReady`: the resource exists, has a status with
   * conditions, and one condition has type `Ready` and status `True`; a
   * missing resource, status or condition list means not ready.
   */
  function IsCustomResourceReady(cr: Option<CustomResource>): (ready: bool)
    ensures ready <==>
      && cr.Some? && cr.value.status.Some? && cr.value.status.value.conditions.Some?
      && exists c :: c in cr.value.status.value.conditions.value && IsReadyCondition(c)
  {
    match cr
    case None => false
    case Some(resource) =>
      match resource.status
      case None => false
      case Some(status) =>
        match status.conditions
        case None => false
        case Some(conditions) => AnyReady(conditions)
  }

  /** Once ready, a resource stays ready when more conditions are reported. */
  lemma ReadinessSurvivesNewConditions(cr: CustomResource, more: seq<Condition>)
    requires IsCustomResourceReady(Some(cr))
    ensures var conditions := cr.status.value.conditions.value + more;
      IsCustomResourceReady(Some(cr.(status := Some(CustomResourceStatus(Some(conditions))))))
  {
    var c :| c in cr.status.value.conditions.value && IsReadyCondition(c);
    assert c in cr.status.value.conditions.value + more;
  }

  /** The TLS settings of a route; only their presence matters here. */
  datatype Tls = Tls(termination: string)

  datatype RouteSpec = RouteSpec(host: string, tls: Option<Tls>, path: Option<string>)

  /** An OpenShift route; its spec may be missing. */
  datatype Route = Route(spec: Option<RouteSpec>)

  /** A URI as scheme, host, port (-1 for the scheme's default) and path. */
  datatype URILike = URILike(scheme: string, host: string, port: int, path: string)

  /**
   * `url` for a service that is not serverless: `https` when the route has
   * TLS settings and `http` otherwise, the route's host, the default port,
   * and the route's path or the empty path; no route, or a route without a
   * spec, is a failure.
   */
  function RouteUrl(serviceName: string, route: Option<Route>): (r: Result<URILike, Fault>)
    ensures r.Failure? <==> route.None? || route.value.spec.None?
    ensures r.Failure? ==> r.error == RouteNotFound(serviceName)
    ensures r.Success? ==>
      var spec := route.value.spec.value;
      && r.value.scheme == (if spec.tls.Some? then "https" else "http")
      && r.value.host == spec.host
      && r.value.port == -1
      && r.value.path == spec.path.GetOr("")
  {
    match route
    case None => Failure(RouteNotFound(serviceName))
    case Some(Route(None)) => Failure(RouteNotFound(serviceName))
    case Some(Route(Some(spec))) =>
      var protocol := if spec.tls.None? then "http" else "https";
      var path := if spec.path.None? then "" else spec.path.value;
      Success(URILike(protocol, spec.host, -1, path))
  }

  /**
   * `url`: a serverless service is reached at its knative route's URL, and
   * fails when it has none; any other service at its route's URL.
   */
  function ServiceUrl(serviceName: string, serverless: bool, knativeUrl: Option<URILike>, route: Option<Route>)
    : (r: Result<URILike, Fault>)
    ensures serverless ==> (r.Success? <==> knativeUrl.Some?)
    ensures serverless && knativeUrl.Some? ==> r.value == knativeUrl.value
    ensures serverless && knativeUrl.None? ==> r.error == KnativeRouteNotFound(serviceName)
    ensures !serverless ==> r == RouteUrl(serviceName, route)
  {
    if serverless then
      match knativeUrl
      case Some(u) => Success(u)
      case None => Failure(KnativeRouteNotFound(serviceName))
    else RouteUrl(serviceName, route)
  }
}

=== FILE: resolver.dfy ===
/**
 * The resource property resolver (`enrichProperties`, first phase): each
 * property value tagged as a resource, a resource with destination or a
 * secret is materialised as a ConfigMap entry or a Secret, recorded as a
 * volume at its mount path, and rewritten to the path of the mounted file.
 * Untagged values pass through.
 */
module Resolver {
  import opened Wrappers
  import opened Iteration
  import opened Paths
  import opened PropertySyntax
  import opened Kube
  import opened Commands

  /** The part of the cluster the resolver changes, and the `oc` invocations made so far. */
  datatype ClusterState = ClusterState(
    configMaps: map<string, map<string, string>>,
    secrets: set<string>,
    commands: seq<seq<string>>)

  /**
   * What the resolver works with but does not own: the namespace, the value
   * syntax, the file search (`getFilePath`), file loading from the file
   * system or the classpath, whether an `oc` invocation succeeds, and the
   * iteration order of hash maps.
   */
  datatype Context = Context(
    namespace: string,
    syntax: Syntax,
    filePath: string -> string,
    load: string -> string,
    cli: seq<string> -> bool,
    order: set<string> -> seq<string>)

  ghost predicate ValidContext(ctx: Context)
  {
    && ValidSyntax(ctx.syntax)
    && forall s :: Enumerates(ctx.order(s), s)
  }

  /** `getFileContent`: the content of the file the path resolves to. */
  function FileContent(ctx: Context, path: string): string
  {
    ctx.load(ctx.filePath(path))
  }

  /**
   * `createOrUpdateConfigMap`: put `key -> value` into the data of the named
   * ConfigMap, creating the ConfigMap when it does not exist.
   */
  function CreateOrUpdate(maps: map<string, map<string, string>>, name: string, key: string, value: string)
    : (r: map<string, map<string, string>>)
    ensures r.Keys == maps.Keys + {name}
    ensures r[name].Keys == (if name in maps then maps[name].Keys else {}) + {key}
    ensures r[name][key] == value
    ensures forall k :: k in r[name] && k != key ==> r[name][k] == maps[name][k]
    ensures forall n :: n in maps && n != name ==> r[n] == maps[n]
  {
    if name in maps then maps[name := maps[name][key := value]]
    else maps[name := map[key := value]]
  }

  /** Putting the same entry twice leaves the ConfigMaps as putting it once. */
  lemma CreateOrUpdateIdempotent(maps: map<string, map<string, string>>, name: string, key: string, value: string)
    ensures CreateOrUpdate(CreateOrUpdate(maps, name, key, value), name, key, value) == CreateOrUpdate(maps, name, key, value)
  {
    var once := CreateOrUpdate(maps, name, key, value);
    assert once[name][key := value] == once[name];
  }

  /** A cluster change together with the failure that stopped it, if any. */
  datatype Effect = Effect(cluster: ClusterState, fault: Option<Fault>)

  /**
   * `doCreateSecretFromFile`: when no secret of that name exists, run
   * `oc create secret generic`; the secret exists afterwards if the
   * invocation succeeded, and a failed invocation aborts.
   */
  function CreateSecretFromFile(ctx: Context, c: ClusterState, name: string, filePath: string): (e: Effect)
    ensures name in c.secrets ==> e == Effect(c, None)
    ensures name !in c.secrets ==>
      var argv := SecretArgv(ctx.namespace, name, filePath);
      && e.cluster.commands == c.commands + [argv]
      && (e.fault.None? <==> ctx.cli(argv))
      && (e.fault.Some? ==> e.fault.value == CommandFailed(argv) && e.cluster.secrets == c.secrets)
    ensures e.fault.None? ==> e.cluster.secrets == c.secrets + {name}
    ensures e.cluster.configMaps == c.configMaps
  {
    if name in c.secrets then Effect(c, None)
    else
      var argv := SecretArgv(ctx.namespace, name, filePath);
      var issued := c.(commands := c.commands + [argv]);
      if ctx.cli(argv) then Effect(issued.(secrets := c.secrets + {name}), None)
      else Effect(issued, Some(CommandFailed(argv)))
  }

  /**
   * Creating a secret is idempotent: a second request, after a first one
   * succeeded, runs nothing and changes nothing; the first one runs at most
   * one command.
   */
  lemma CreateSecretIdempotent(ctx: Context, c: ClusterState, name: string, filePath: string)
    ensures var e := CreateSecretFromFile(ctx, c, name, filePath);
      && (e.fault.None? ==> name in e.cluster.secrets)
      && (e.fault.None? ==> CreateSecretFromFile(ctx, e.cluster, name, filePath) == Effect(e.cluster, None))
      && |e.cluster.commands| <= |c.commands| + 1
      && e.cluster.configMaps == c.configMaps
  {
  }

  /** The state of one pass: cluster, volumes by mount path, rewritten properties, and the failure that stopped the pass. */
  datatype Resolution = Resolution(
    cluster: ClusterState,
    volumes: map<string, CustomVolume>,
    output: map<string, string>,
    fault: Option<Fault>)

  function Initial(c: ClusterState): Resolution
  {
    Resolution(c, map[], map[], None)
  }

  /** A resource value: ConfigMap `normalize(mountPath)` gets the file; the first volume at the mount path wins. */
  function ResolveResource(ctx: Context, s: Resolution, key: string, value: string): (r: Resolution)
    requires ValidSyntax(ctx.syntax)
    ensures r.fault == s.fault
  {
    var path := RemoveAll(value, ctx.syntax.resourcePrefix);
    var mount := MountPath(path);
    var file := FileName(path);
    var cm := NormalizeConfigMapName(mount);
    s.(cluster := s.cluster.(configMaps := CreateOrUpdate(s.cluster.configMaps, cm, file, FileContent(ctx, path))),
       volumes := if mount in s.volumes then s.volumes else s.volumes[mount := CustomVolume(cm, "", ConfigMapVolume)],
       output := s.output[key := mount + [Slash] + file])
  }

  /**
   * A resource-with-destination value: rejected unless the matcher accepts
   * it and its split has two fields; otherwise like a resource, except that
   * the volume is recorded under `mountPath/fileName`, with the file name as
   * sub-path, when nothing is recorded under `mountPath`.
   */
  function ResolveDestination(ctx: Context, s: Resolution, key: string, value: string): (r: Resolution)
    requires ValidSyntax(ctx.syntax)
    ensures r.fault != s.fault ==> r.output == s.output && r.volumes == s.volumes
  {
    var path := RemoveAll(value, ctx.syntax.destinationPrefix);
    if !ctx.syntax.destinationMatcher(value) then s.(fault := Some(MalformedDestination(value)))
    else
      var parts := JavaSplit(path, ctx.syntax.separator);
      if |parts| < 2 then s.(fault := Some(DestinationIndexOutOfBounds(value)))
      else
        var normalized := FileName(parts[1]);
        PlaceDestination(s, key, parts[0], normalized, FileContent(ctx, parts[1]))
  }

  /**
   * The accepted resource with destination: ConfigMap `normalize(dest)` maps
   * the file name to the content, and the value becomes `dest/name`.
   */
  function PlaceDestination(s: Resolution, key: string, dest: string, name: string, content: string): Resolution
  {
    var cm := NormalizeConfigMapName(dest);
    var rewritten := dest + [Slash] + name;
    s.(cluster := s.cluster.(configMaps := CreateOrUpdate(s.cluster.configMaps, cm, name, content)),
       volumes := if dest in s.volumes then s.volumes
                  else s.volumes[rewritten := CustomVolume(cm, name, ConfigMapVolume)],
       output := s.output[key := rewritten])
  }

  /** A secret value: the secret is named after the whole path, created if absent; the last volume at the mount path wins. */
  function ResolveSecret(ctx: Context, s: Resolution, key: string, value: string): Resolution
    requires ValidSyntax(ctx.syntax)
  {
    var path := RemoveAll(value, ctx.syntax.secretPrefix);
    var mount := MountPath(path);
    var file := FileName(path);
    var name := NormalizeConfigMapName(path);
    PlaceSecret(s, CreateSecretFromFile(ctx, s.cluster, name, ctx.filePath(path)), key, mount, name, mount + [Slash] + file)
  }

  /** The outcome of the secret creation `e`: on success the secret is mounted at `mount` and the value becomes `rewritten`. */
  function PlaceSecret(s: Resolution, e: Effect, key: string, mount: string, name: string, rewritten: string): (r: Resolution)
    ensures r.fault != s.fault ==> r.output == s.output && r.volumes == s.volumes
  {
    if e.fault.Some? then s.(cluster := e.cluster, fault := e.fault)
    else
      s.(cluster := e.cluster,
         volumes := s.volumes[mount := CustomVolume(name, "", SecretVolume)],
         output := s.output[key := rewritten])
  }

  /** One property entry, classified by prefix. */
  function ResolveEntry(ctx: Context, s: Resolution, key: string, value: string): (r: Resolution)
    requires ValidSyntax(ctx.syntax)
    ensures s.fault.Some? ==> r == s
    ensures r.fault.Some? ==> r.output == s.output && r.volumes == s.volumes
  {
    if s.fault.Some? then s
    else
      match Classify(ctx.syntax, value)
      case ResourceTag => ResolveResource(ctx, s, key, value)
      case DestinationTag => ResolveDestination(ctx, s, key, value)
      case SecretTag => ResolveSecret(ctx, s, key, value)
      case LiteralTag => s.(output := s.output[key := value])
  }

  /** The entries taken in the order of `keys`; a failure ends the pass. */
  function ResolveAll(ctx: Context, s0: Resolution, props: map<string, string>, keys: seq<string>): (r: Resolution)
    requires ValidSyntax(ctx.syntax)
    requires forall k :: k in keys ==> k in props
    ensures s0.fault.Some? ==> r == s0
  {
    if |keys| == 0 then s0
    else
      var last := keys[|keys| - 1];
      ResolveEntry(ctx, ResolveAll(ctx, s0, props, keys[..|keys| - 1]), last, props[last])
  }

  /** The pass over a property map, in its iteration order. */
  function Resolve(ctx: Context, c: ClusterState, props: map<string, string>): (r: Resolution)
    requires ValidContext(ctx)
    ensures r.fault.None? ==> r.output.Keys == props.Keys
    ensures r.fault.None? ==> forall k :: k in props ==> r.output[k] == RewrittenValue(ctx.syntax, props[k])
    ensures c.configMaps.Keys <= r.cluster.configMaps.Keys && c.secrets <= r.cluster.secrets
    ensures |c.commands| <= |r.cluster.commands| && r.cluster.commands[..|c.commands|] == c.commands
  {
    var keys := ctx.order(props.Keys);
    ResolvedOutput(ctx, c, props, keys);
    ClusterOnlyGrows(ctx, Initial(c), props, keys);
    ResolveAll(ctx, Initial(c), props, keys)
  }

  /**
   * What a value becomes, by itself: a resource or secret becomes
   * `mountPath/fileName` of its path, a well-formed resource with
   * destination becomes `destinationPath/fileName`, any other value stays.
   */
  function RewrittenValue(syn: Syntax, value: string): string
    requires ValidSyntax(syn)
  {
    match Classify(syn, value)
    case ResourceTag =>
      var path := RemoveAll(value, syn.resourcePrefix);
      MountPath(path) + [Slash] + FileName(path)
    case DestinationTag =>
      var parts := JavaSplit(RemoveAll(value, syn.destinationPrefix), syn.separator);
      if |parts| < 2 then value else parts[0] + [Slash] + FileName(parts[1])
    case SecretTag =>
      var path := RemoveAll(value, syn.secretPrefix);
      MountPath(path) + [Slash] + FileName(path)
    case LiteralTag => value
  }

  /** One entry writes its own key of the output, with the value's rewrite, and no other key. */
  lemma ResolveEntryOutput(ctx: Context, s: Resolution, key: string, value: string)
    requires ValidSyntax(ctx.syntax) && s.fault.None?
    ensures var r := ResolveEntry(ctx, s, key, value);
      r.fault.None? ==> r.output == s.output[key := RewrittenValue(ctx.syntax, value)]
  {
    match Classify(ctx.syntax, value)
    case ResourceTag =>
      assert ResolveEntry(ctx, s, key, value) == ResolveResource(ctx, s, key, value);
    case DestinationTag =>
      assert ResolveEntry(ctx, s, key, value) == ResolveDestination(ctx, s, key, value);
    case SecretTag =>
      assert ResolveEntry(ctx, s, key, value) == ResolveSecret(ctx, s, key, value);
    case LiteralTag =>
  }

  /**
   * When a pass completes, its output holds exactly the keys of the
   * properties, each with the rewrite of its own value: the order in which
   * the entries were visited does not matter.
   */
  lemma {:induction false} ResolvedOutput(ctx: Context, c: ClusterState, props: map<string, string>, keys: seq<string>)
    requires ValidSyntax(ctx.syntax)
    requires forall k :: k in keys ==> k in props
    ensures var r := ResolveAll(ctx, Initial(c), props, keys);
      r.fault.None? ==>
        && (forall k :: k in r.output <==> k in keys)
        && (forall k :: k in keys ==> r.output[k] == RewrittenValue(ctx.syntax, props[k]))
  {
    if |keys| > 0 {
      var init := keys[..|keys| - 1];
      var last := keys[|keys| - 1];
      ResolvedOutput(ctx, c, props, init);
      var s := ResolveAll(ctx, Initial(c), props, init);
      if s.fault.None? {
        ResolveEntryOutput(ctx, s, last, props[last]);
      }
      assert forall k :: k in keys ==> k in init || k == last;
    }
  }

  /**
   * A pass over untagged values only creates no ConfigMap, Secret or
   * volume, runs no command, cannot fail, and returns the values unchanged.
   */
  lemma {:induction false} LiteralPropertiesPassThrough(ctx: Context, c: ClusterState, props: map<string, string>, keys: seq<string>)
    requires ValidSyntax(ctx.syntax)
    requires forall k :: k in keys ==> k in props
    requires forall k :: k in keys ==> Classify(ctx.syntax, props[k]) == LiteralTag
    ensures var r := ResolveAll(ctx, Initial(c), props, keys);
      && r.fault.None? && r.cluster == c && r.volumes == map[]
      && (forall k :: k in r.output <==> k in keys)
      && (forall k :: k in keys ==> r.output[k] == props[k])
  {
    if |keys| > 0 {
      LiteralPropertiesPassThrough(ctx, c, props, keys[..|keys| - 1]);
      assert forall k :: k in keys ==> k in keys[..|keys| - 1] || k == keys[|keys| - 1];
    }
  }

  /**
   * A resource value rewrites to `mountPath/fileName`; ConfigMap
   * `normalize(mountPath)` maps the file name to the file's content while
   * every other entry and ConfigMap stays; a volume is recorded at the mount
   * path only when none is there (first wins); secrets and commands do not change.
   */
  lemma ResourceEntry(ctx: Context, s: Resolution, key: string, value: string)
    requires ValidSyntax(ctx.syntax) && s.fault.None?
    requires Classify(ctx.syntax, value) == ResourceTag
    ensures var path := RemoveAll(value, ctx.syntax.resourcePrefix);
      var mount := MountPath(path);
      var file := FileName(path);
      var cm := NormalizeConfigMapName(mount);
      var r := ResolveEntry(ctx, s, key, value);
      && r.fault.None?
      && r.output[key] == mount + [Slash] + file && mount[0] == Slash
      && r.cluster.configMaps.Keys == s.cluster.configMaps.Keys + {cm}
      && r.cluster.configMaps[cm][file] == FileContent(ctx, path)
      && (forall k :: k in r.cluster.configMaps[cm] && k != file ==> r.cluster.configMaps[cm][k] == s.cluster.configMaps[cm][k])
      && (forall n :: n in s.cluster.configMaps && n != cm ==> r.cluster.configMaps[n] == s.cluster.configMaps[n])
      && r.cluster.secrets == s.cluster.secrets && r.cluster.commands == s.cluster.commands
      && (mount in s.volumes ==> r.volumes == s.volumes)
      && (mount !in s.volumes ==> r.volumes == s.volumes[mount := CustomVolume(cm, "", ConfigMapVolume)])
  {
  }

  /**
   * A resource-with-destination value that the matcher rejects, or whose
   * path has no separator, aborts the pass before any ConfigMap is written.
   */
  lemma DestinationEntryRejected(ctx: Context, s: Resolution, key: string, value: string)
    requires ValidSyntax(ctx.syntax) && s.fault.None?
    requires Classify(ctx.syntax, value) == DestinationTag
    requires !ctx.syntax.destinationMatcher(value)
          || ctx.syntax.separator !in RemoveAll(value, ctx.syntax.destinationPrefix)
    ensures var r := ResolveEntry(ctx, s, key, value);
      && r.fault.Some? && r.cluster == s.cluster
      && (!ctx.syntax.destinationMatcher(value) ==> r.fault == Some(MalformedDestination(value)))
  {
    var path := RemoveAll(value, ctx.syntax.destinationPrefix);
    if ctx.syntax.separator !in path {
      SplitWithoutSeparator(path, ctx.syntax.separator);
    }
  }

  /**
   * A well-formed `destinationPath|fileName` value: the output is
   * `destinationPath/name` with `name` the file name of `fileName`, the
   * ConfigMap `normalize(destinationPath)` maps `name` to the content of
   * `fileName`, and when nothing is recorded at `destinationPath` the volume
   * is recorded under `destinationPath/name` (not under `destinationPath`)
   * with `name` as its sub-path.
   */
  lemma DestinationEntryAccepted(ctx: Context, s: Resolution, key: string, value: string, dest: string, fileName: string)
    requires ValidSyntax(ctx.syntax) && s.fault.None?
    requires Classify(ctx.syntax, value) == DestinationTag
    requires ctx.syntax.destinationMatcher(value)
    requires RemoveAll(value, ctx.syntax.destinationPrefix) == dest + [ctx.syntax.separator] + fileName
    requires ctx.syntax.separator !in dest && ctx.syntax.separator !in fileName && fileName != ""
    ensures var name := FileName(fileName);
      var cm := NormalizeConfigMapName(dest);
      var rewritten := dest + [Slash] + name;
      var r := ResolveEntry(ctx, s, key, value);
      && r.fault.None?
      && r.output[key] == rewritten
      && r.cluster.configMaps == CreateOrUpdate(s.cluster.configMaps, cm, name, FileContent(ctx, fileName))
      && r.cluster.configMaps[cm][name] == FileContent(ctx, fileName)
      && r.cluster.secrets == s.cluster.secrets && r.cluster.commands == s.cluster.commands
      && (dest in s.volumes ==> r.volumes == s.volumes)
      && (dest !in s.volumes ==> r.volumes == s.volumes[rewritten := CustomVolume(cm, name, ConfigMapVolume)])
  {
    var path := RemoveAll(value, ctx.syntax.destinationPrefix);
    SplitPair(dest, ctx.syntax.separator, fileName);
    assert JavaSplit(path, ctx.syntax.separator) == [dest, fileName];
    assert ResolveEntry(ctx, s, key, value) == ResolveDestination(ctx, s, key, value);
    assert ResolveDestination(ctx, s, key, value)
        == PlaceDestination(s, key, dest, FileName(fileName), FileContent(ctx, fileName));
  }

  /**
   * A secret value: the secret is named after the whole path, not the mount
   * path; an existing secret is left alone and no command runs; otherwise
   * one `oc create secret` runs and the pass fails if it fails; on success
   * the secret exists, the volume at the mount path is overwritten whatever
   * was there (last wins), and the value becomes `mountPath/fileName`.
   */
  lemma SecretEntry(ctx: Context, s: Resolution, key: string, value: string)
    requires ValidSyntax(ctx.syntax) && s.fault.None?
    requires Classify(ctx.syntax, value) == SecretTag
    ensures var path := RemoveAll(value, ctx.syntax.secretPrefix);
      var mount := MountPath(path);
      var name := NormalizeConfigMapName(path);
      var argv := SecretArgv(ctx.namespace, name, ctx.filePath(path));
      var r := ResolveEntry(ctx, s, key, value);
      && r.cluster.configMaps == s.cluster.configMaps
      && (name in s.cluster.secrets ==> r.fault.None? && r.cluster == s.cluster)
      && (name !in s.cluster.secrets ==>
            r.cluster.commands == s.cluster.commands + [argv] && (r.fault.None? <==> ctx.cli(argv)))
      && (r.fault.None? ==>
            && name in r.cluster.secrets
            && r.volumes == s.volumes[mount := CustomVolume(name, "", SecretVolume)]
            && r.output[key] == mount + [Slash] + FileName(path))
  {
  }

  /** Resolving the same entry a second time, after it succeeded, changes nothing. */
  lemma ResolveEntryIdempotent(ctx: Context, s: Resolution, key: string, value: string)
    requires ValidSyntax(ctx.syntax)
    requires ResolveEntry(ctx, s, key, value).fault.None?
    ensures var r := ResolveEntry(ctx, s, key, value);
      ResolveEntry(ctx, r, key, value) == r
  {
    var r := ResolveEntry(ctx, s, key, value);
    match Classify(ctx.syntax, value)
    case ResourceTag =>
      assert r == ResolveResource(ctx, s, key, value);
      ResourceIdempotent(ctx, s, key, value);
      assert ResolveEntry(ctx, r, key, value) == ResolveResource(ctx, r, key, value);
    case DestinationTag =>
      assert r == ResolveDestination(ctx, s, key, value);
      var parts := JavaSplit(RemoveAll(value, ctx.syntax.destinationPrefix), ctx.syntax.separator);
      assert ctx.syntax.destinationMatcher(value) && |parts| >= 2;
      DestinationIdempotent(ctx, s, key, value);
      assert ResolveEntry(ctx, r, key, value) == ResolveDestination(ctx, r, key, value);
    case SecretTag =>
      assert r == ResolveSecret(ctx, s, key, value);
      SecretIdempotent(ctx, s, key, value);
      assert ResolveEntry(ctx, r, key, value) == ResolveSecret(ctx, r, key, value);
    case LiteralTag =>
  }

  lemma SecretIdempotent(ctx: Context, s: Resolution, key: string, value: string)
    requires ValidSyntax(ctx.syntax)
    requires ResolveSecret(ctx, s, key, value).fault.None?
    ensures var r := ResolveSecret(ctx, s, key, value);
      ResolveSecret(ctx, r, key, value) == r
  {
    var path := RemoveAll(value, ctx.syntax.secretPrefix);
    var mount := MountPath(path);
    var name := NormalizeConfigMapName(path);
    var out := mount + [Slash] + FileName(path);
    var e := CreateSecretFromFile(ctx, s.cluster, name, ctx.filePath(path));
    CreateSecretIdempotent(ctx, s.cluster, name, ctx.filePath(path));
    PlaceSecretIdempotent(s, e, key, mount, name, out);
  }

  lemma PlaceSecretIdempotent(s: Resolution, e: Effect, key: string, mount: string, name: string, rewritten: string)
    requires e.fault.None?
    ensures var r := PlaceSecret(s, e, key, mount, name, rewritten);
      PlaceSecret(r, Effect(r.cluster, None), key, mount, name, rewritten) == r
  {
    var r := PlaceSecret(s, e, key, mount, name, rewritten);
    assert r.volumes[mount := CustomVolume(name, "", SecretVolume)] == r.volumes;
    assert r.output[key := rewritten] == r.output;
  }

  lemma ResourceIdempotent(ctx: Context, s: Resolution, key: string, value: string)
    requires ValidSyntax(ctx.syntax)
    ensures var r := ResolveResource(ctx, s, key, value);
      ResolveResource(ctx, r, key, value) == r
  {
    var path := RemoveAll(value, ctx.syntax.resourcePrefix);
    var mount := MountPath(path);
    var r := ResolveResource(ctx, s, key, value);
    CreateOrUpdateIdempotent(s.cluster.configMaps, NormalizeConfigMapName(mount), FileName(path), FileContent(ctx, path));
    assert mount in r.volumes;
    assert r.output[key := mount + [Slash] + FileName(path)] == r.output;
  }

  lemma DestinationIdempotent(ctx: Context, s: Resolution, key: string, value: string)
    requires ValidSyntax(ctx.syntax)
    requires ctx.syntax.destinationMatcher(value)
    requires |JavaSplit(RemoveAll(value, ctx.syntax.destinationPrefix), ctx.syntax.separator)| >= 2
    ensures var r := ResolveDestination(ctx, s, key, value);
      ResolveDestination(ctx, r, key, value) == r
  {
    var parts := JavaSplit(RemoveAll(value, ctx.syntax.destinationPrefix), ctx.syntax.separator);
    PlaceDestinationIdempotent(s, key, parts[0], FileName(parts[1]), FileContent(ctx, parts[1]));
  }

  lemma PlaceDestinationIdempotent(s: Resolution, key: string, dest: string, name: string, content: string)
    ensures var r := PlaceDestination(s, key, dest, name, content);
      PlaceDestination(r, key, dest, name, content) == r
  {
    var rewritten := dest + [Slash] + name;
    CreateOrUpdateIdempotent(s.cluster.configMaps, NormalizeConfigMapName(dest), name, content);
    assert dest != rewritten by {
      assert |rewritten| > |dest|;
    }
  }

  /** One more entry: the pass continues from the resolution the prefix left. */
  lemma ResolveAllStep(ctx: Context, s0: Resolution, props: map<string, string>, keys: seq<string>, i: nat)
    requires ValidSyntax(ctx.syntax)
    requires forall k :: k in keys ==> k in props
    requires i < |keys|
    ensures ResolveAll(ctx, s0, props, keys[..i + 1])
      == ResolveEntry(ctx, ResolveAll(ctx, s0, props, keys[..i]), keys[i], props[keys[i]])
  {
    assert keys[..i + 1][..i] == keys[..i];
  }

  /** Once a pass has failed, the remaining entries change nothing. */
  lemma {:induction false} FaultIsFinal(ctx: Context, s0: Resolution, props: map<string, string>, keys: seq<string>, i: nat)
    requires ValidSyntax(ctx.syntax)
    requires forall k :: k in keys ==> k in props
    requires i <= |keys|
    requires ResolveAll(ctx, s0, props, keys[..i]).fault.Some?
    ensures ResolveAll(ctx, s0, props, keys) == ResolveAll(ctx, s0, props, keys[..i])
    decreases |keys| - i
  {
    if i < |keys| {
      assert keys[..i + 1][..i] == keys[..i];
      FaultIsFinal(ctx, s0, props, keys, i + 1);
    } else {
      assert keys[..i] == keys;
    }
  }

  /** Putting an entry into the ConfigMaps keeps every ConfigMap and every key. */
  lemma CreateOrUpdateGrows(maps: map<string, map<string, string>>, name: string, key: string, value: string)
    ensures var r := CreateOrUpdate(maps, name, key, value);
      && maps.Keys <= r.Keys
      && (forall n :: n in maps ==> maps[n].Keys <= r[n].Keys)
  {
  }

  lemma CreateSecretGrows(ctx: Context, c: ClusterState, name: string, filePath: string)
    ensures var e := CreateSecretFromFile(ctx, c, name, filePath);
      && e.cluster.configMaps == c.configMaps
      && c.secrets <= e.cluster.secrets
      && |c.commands| <= |e.cluster.commands|
      && e.cluster.commands[..|c.commands|] == c.commands
  {
  }

  /** One entry never removes a ConfigMap, a ConfigMap key or a secret, and only appends commands. */
  lemma ResolveEntryGrows(ctx: Context, s: Resolution, key: string, value: string)
    requires ValidSyntax(ctx.syntax)
    ensures var r := ResolveEntry(ctx, s, key, value);
      && s.cluster.configMaps.Keys <= r.cluster.configMaps.Keys
      && (forall n :: n in s.cluster.configMaps ==> s.cluster.configMaps[n].Keys <= r.cluster.configMaps[n].Keys)
      && s.cluster.secrets <= r.cluster.secrets
      && |s.cluster.commands| <= |r.cluster.commands|
      && r.cluster.commands[..|s.cluster.commands|] == s.cluster.commands
  {
    if s.fault.None? {
      match Classify(ctx.syntax, value)
      case ResourceTag =>
        var path := RemoveAll(value, ctx.syntax.resourcePrefix);
        CreateOrUpdateGrows(s.cluster.configMaps, NormalizeConfigMapName(MountPath(path)), FileName(path), FileContent(ctx, path));
      case DestinationTag =>
        var parts := JavaSplit(RemoveAll(value, ctx.syntax.destinationPrefix), ctx.syntax.separator);
        if ctx.syntax.destinationMatcher(value) && |parts| >= 2 {
          CreateOrUpdateGrows(s.cluster.configMaps, NormalizeConfigMapName(parts[0]), FileName(parts[1]), FileContent(ctx, parts[1]));
        }
      case SecretTag =>
        var path := RemoveAll(value, ctx.syntax.secretPrefix);
        var name := NormalizeConfigMapName(path);
        var e := CreateSecretFromFile(ctx, s.cluster, name, ctx.filePath(path));
        CreateSecretGrows(ctx, s.cluster, name, ctx.filePath(path));
        assert ResolveEntry(ctx, s, key, value).cluster == e.cluster;
      case LiteralTag =>
    }
  }

  /**
   * A pass never removes a ConfigMap, a ConfigMap entry's key or a secret,
   * and only appends to the commands run.
   */
  lemma {:induction false} ClusterOnlyGrows(ctx: Context, s0: Resolution, props: map<string, string>, keys: seq<string>)
    requires ValidSyntax(ctx.syntax)
    requires forall k :: k in keys ==> k in props
    ensures var r := ResolveAll(ctx, s0, props, keys);
      && s0.cluster.configMaps.Keys <= r.cluster.configMaps.Keys
      && (forall n :: n in s0.cluster.configMaps ==> s0.cluster.configMaps[n].Keys <= r.cluster.configMaps[n].Keys)
      && s0.cluster.secrets <= r.cluster.secrets
      && |s0.cluster.commands| <= |r.cluster.commands|
      && r.cluster.commands[..|s0.cluster.commands|] == s0.cluster.commands
  {
    if |keys| > 0 {
      var init := keys[..|keys| - 1];
      var last := keys[|keys| - 1];
      ClusterOnlyGrows(ctx, s0, props, init);
      var s := ResolveAll(ctx, s0, props, init);
      ResolveEntryGrows(ctx, s, last, props[last]);
      var r := ResolveEntry(ctx, s, last, props[last]);
      assert r.cluster.commands[..|s0.cluster.commands|] == r.cluster.commands[..|s.cluster.commands|][..|s0.cluster.commands|];
    }
  }

  /**
   * A resource at `dir/file` (e.g. `config/app.yml`) is mounted at `dir`
   * made absolute (`/config`), from the ConfigMap named after `dir`
   * (`config`), under the key `file`, and the value becomes
   * `/dir/file`.
   */
  lemma ResourceInDirectory(ctx: Context, s: Resolution, key: string, value: string, dir: string, file: string)
    requires ValidSyntax(ctx.syntax) && s.fault.None?
    requires Classify(ctx.syntax, value) == ResourceTag
    requires RemoveAll(value, ctx.syntax.resourcePrefix) == dir + [Slash] + file
    requires dir != "" && Slash !in file
    ensures var mount := if dir[0] == Slash then dir else [Slash] + dir;
      var cm := NormalizeConfigMapName(dir);
      var r := ResolveEntry(ctx, s, key, value);
      && r.fault.None?
      && r.output[key] == mount + [Slash] + file
      && cm in r.cluster.configMaps && file in r.cluster.configMaps[cm]
      && r.cluster.configMaps[cm][file] == FileContent(ctx, dir + [Slash] + file)
      && (mount !in s.volumes ==> r.volumes == s.volumes[mount := CustomVolume(cm, "", ConfigMapVolume)])
  {
    DirAndFile(dir, file);
    ResourceEntry(ctx, s, key, value);
  }

  /**
   * A secret at `dir/file` (e.g. `certs/tls.crt`) is named after the whole
   * path (`certs-tls-crt`), mounted at `dir` made absolute (`/certs`), and
   * the value becomes `/dir/file`.
   */
  lemma SecretInDirectory(ctx: Context, s: Resolution, key: string, value: string, dir: string, file: string)
    requires ValidSyntax(ctx.syntax) && s.fault.None?
    requires Classify(ctx.syntax, value) == SecretTag
    requires RemoveAll(value, ctx.syntax.secretPrefix) == dir + [Slash] + file
    requires dir != "" && Slash !in file
    ensures var mount := if dir[0] == Slash then dir else [Slash] + dir;
      var name := NormalizeConfigMapName(dir + [Slash] + file);
      var r := ResolveEntry(ctx, s, key, value);
      r.fault.None? ==>
        && name in r.cluster.secrets
        && r.output[key] == mount + [Slash] + file
        && r.volumes == s.volumes[mount := CustomVolume(name, "", SecretVolume)]
  {
    DirAndFile(dir, file);
    SecretEntry(ctx, s, key, value);
  }

  /**
   * Two secrets in the same directory share one mount path, and the volume
   * recorded there is the secret resolved last: which of the two is mounted
   * depends on the iteration order.
   */
  lemma SharedSecretMountFollowsOrder(ctx: Context, s: Resolution, ka: string, va: string, kb: string, vb: string)
    requires ValidSyntax(ctx.syntax) && s.fault.None? && ka != kb
    requires Classify(ctx.syntax, va) == SecretTag && Classify(ctx.syntax, vb) == SecretTag
    requires MountPath(RemoveAll(va, ctx.syntax.secretPrefix)) == MountPath(RemoveAll(vb, ctx.syntax.secretPrefix))
    requires NormalizeConfigMapName(RemoveAll(va, ctx.syntax.secretPrefix)) != NormalizeConfigMapName(RemoveAll(vb, ctx.syntax.secretPrefix))
    requires ResolveEntry(ctx, ResolveEntry(ctx, s, ka, va), kb, vb).fault.None?
    requires ResolveEntry(ctx, ResolveEntry(ctx, s, kb, vb), ka, va).fault.None?
    ensures ResolveEntry(ctx, ResolveEntry(ctx, s, ka, va), kb, vb).volumes
         != ResolveEntry(ctx, ResolveEntry(ctx, s, kb, vb), ka, va).volumes
  {
    var mount := MountPath(RemoveAll(va, ctx.syntax.secretPrefix));
    LastSecretMounted(ctx, s, ka, va, kb, vb);
    LastSecretMounted(ctx, s, kb, vb, ka, va);
    assert ResolveEntry(ctx, ResolveEntry(ctx, s, ka, va), kb, vb).volumes[mount]
        != ResolveEntry(ctx, ResolveEntry(ctx, s, kb, vb), ka, va).volumes[mount];
  }

  /**
   * Of two secrets with the same mount path, resolved `a` then `b`, only `b`
   * is mounted there; `a` is still created and its value still rewritten to
   * a file under that mount path, which no volume then provides.
   */
  lemma LastSecretMounted(ctx: Context, s: Resolution, ka: string, va: string, kb: string, vb: string)
    requires ValidSyntax(ctx.syntax) && s.fault.None? && ka != kb
    requires Classify(ctx.syntax, va) == SecretTag && Classify(ctx.syntax, vb) == SecretTag
    requires MountPath(RemoveAll(va, ctx.syntax.secretPrefix)) == MountPath(RemoveAll(vb, ctx.syntax.secretPrefix))
    requires ResolveEntry(ctx, ResolveEntry(ctx, s, ka, va), kb, vb).fault.None?
    ensures var pa := RemoveAll(va, ctx.syntax.secretPrefix);
      var mount := MountPath(pa);
      var ab := ResolveEntry(ctx, ResolveEntry(ctx, s, ka, va), kb, vb);
      && mount in ab.volumes
      && ab.volumes[mount] == CustomVolume(NormalizeConfigMapName(RemoveAll(vb, ctx.syntax.secretPrefix)), "", SecretVolume)
      && NormalizeConfigMapName(pa) in ab.cluster.secrets
      && ka in ab.output
      && ab.output[ka] == mount + [Slash] + FileName(pa)
  {
    var a := ResolveEntry(ctx, s, ka, va);
    assert a.fault.None?;
    SecretEntry(ctx, s, ka, va);
    SecretEntry(ctx, a, kb, vb);
    ResolveEntryOutput(ctx, a, kb, vb);
    ResolveEntryGrows(ctx, a, kb, vb);
  }

  /** The mount path a resource or secret value is recorded at. */
  function MountPathOf(syn: Syntax, value: string): string
    requires ValidSyntax(syn)
  {
    match Classify(syn, value)
    case SecretTag => MountPath(RemoveAll(value, syn.secretPrefix))
    case _ => MountPath(RemoveAll(value, syn.resourcePrefix))
  }

  /** One entry keeps every recorded volume path and records its own resource or secret mount path. */
  lemma ResolveEntryVolumes(ctx: Context, s: Resolution, key: string, value: string)
    requires ValidSyntax(ctx.syntax)
    ensures var r := ResolveEntry(ctx, s, key, value);
      && s.volumes.Keys <= r.volumes.Keys
      && (r.fault.None? && Classify(ctx.syntax, value) in {ResourceTag, SecretTag} ==>
            MountPathOf(ctx.syntax, value) in r.volumes)
  {
    if s.fault.None? {
      match Classify(ctx.syntax, value)
      case ResourceTag =>
        assert ResolveEntry(ctx, s, key, value) == ResolveResource(ctx, s, key, value);
      case DestinationTag =>
        assert ResolveEntry(ctx, s, key, value) == ResolveDestination(ctx, s, key, value);
      case SecretTag =>
        assert ResolveEntry(ctx, s, key, value) == ResolveSecret(ctx, s, key, value);
      case LiteralTag =>
    }
  }

  /**
   * After a completed pass, every resource and every secret property has a
   * volume recorded at its mount path; which volume that is may depend on
   * the iteration order when values share a directory.
   */
  lemma {:induction false} MountPathsRecorded(ctx: Context, s0: Resolution, props: map<string, string>, keys: seq<string>)
    requires ValidSyntax(ctx.syntax)
    requires forall k :: k in keys ==> k in props
    ensures var r := ResolveAll(ctx, s0, props, keys);
      && s0.volumes.Keys <= r.volumes.Keys
      && (r.fault.None? ==>
            forall k :: k in keys && Classify(ctx.syntax, props[k]) in {ResourceTag, SecretTag} ==>
              MountPathOf(ctx.syntax, props[k]) in r.volumes)
  {
    if |keys| > 0 {
      var init := keys[..|keys| - 1];
      var last := keys[|keys| - 1];
      MountPathsRecorded(ctx, s0, props, init);
      var s := ResolveAll(ctx, s0, props, init);
      ResolveEntryVolumes(ctx, s, last, props[last]);
      assert forall k :: k in keys ==> k in init || k == last;
      if ResolveAll(ctx, s0, props, keys).fault.None? {
        assert s.fault.None?;
      }
    }
  }
}

=== FILE: template.dfy ===
/**
 * Template enrichment (`enrichTemplate`): every object of a parsed template
 * is moved into the scenario's namespace and labelled with the scenario id;
 * a deployment config is also renamed after the service, its pod template
 * labelled, and its containers given the resolved properties as
 * environment variables and the resolved volumes as mounts.
 */
module Template {
  import opened Wrappers
  import opened Iteration
  import opened PropertySyntax
  import opened Kube
  import opened EnvVars
  import opened Volumes
  import opened Resolver

  /** Put into the namespace and label with the scenario id; existing labels are kept. */
  function Tagged(m: Metadata, namespace: string, scenarioId: string): (r: Metadata)
    ensures r.name == m.name && r.namespace == Some(namespace) && r.labels.Some?
    ensures r.labels.value.Keys == m.labels.GetOr(map[]).Keys + {LabelScenarioId}
    ensures r.labels.value[LabelScenarioId] == scenarioId
    ensures forall k :: k in m.labels.GetOr(map[]) && k != LabelScenarioId ==> r.labels.value[k] == m.labels.value[k]
  {
    Metadata(m.name, Some(namespace), Some(m.labels.GetOr(map[])[LabelScenarioId := scenarioId]))
  }

  /** Pod-template labels: the service name under the log-watch label and the scenario id; the rest are kept. */
  function PodLabels(labels: map<string, string>, serviceName: string, scenarioId: string): (r: map<string, string>)
    ensures r.Keys == labels.Keys + {LabelToWatchForLogs, LabelScenarioId}
    ensures r[LabelToWatchForLogs] == serviceName && r[LabelScenarioId] == scenarioId
    ensures forall k :: k in labels && k !in {LabelToWatchForLogs, LabelScenarioId} ==> r[k] == labels[k]
  {
    labels[LabelToWatchForLogs := serviceName][LabelScenarioId := scenarioId]
  }

  /** A cluster change together with what the operation produced or why it failed. */
  datatype Step<T> = Step(cluster: ClusterState, result: Result<T, Fault>)

  /** Both objects are deployment configs, or both are other objects of the same kind. */
  predicate SameKind(a: Resource, b: Resource)
  {
    match a
    case DeploymentConfig(_, _) => b.DeploymentConfig?
    case Other(kind, _) => b.Other? && b.kind == kind
  }

  /**
   * The properties a deployment config's containers receive: the resolver's
   * output, overridden by the extra template properties.
   */
  function EnvProperties(res: Resolution, extra: map<string, string>): map<string, string>
  {
    res.output + extra
  }

  /** A deployment config after resolving the service properties against `c`. */
  function EnrichDeployment(ctx: Context, c: ClusterState, scenarioId: string, service: Service,
                            extra: map<string, string>, meta: Metadata, template: PodTemplate): Step<Resource>
    requires ValidContext(ctx)
  {
    match template.metadata.labels
    case None => Step(c, Failure(MissingTemplateLabels(service.name)))
    case Some(labels) =>
      var podMeta := template.metadata.(namespace := Some(ctx.namespace),
                                        labels := Some(PodLabels(labels, service.name, scenarioId)));
      var res := Resolve(ctx, c, service.properties);
      if res.fault.Some? then Step(res.cluster, Failure(res.fault.value))
      else
        var props := EnvProperties(res, extra);
        var spec := MountAll(template.spec, res.volumes, ctx.order(res.volumes.Keys));
        var containers := WithEnv(spec.containers, props, ctx.order(props.Keys));
        Step(res.cluster, Success(DeploymentConfig(meta.(name := service.name),
                                                   PodTemplate(podMeta, spec.(containers := containers)))))
  }

  /** One template object. */
  function EnrichResource(ctx: Context, c: ClusterState, scenarioId: string, service: Service,
                          extra: map<string, string>, obj: Resource): (st: Step<Resource>)
    requires ValidContext(ctx)
    ensures obj.Other? ==> st.cluster == c && st.result.Success?
    ensures obj.DeploymentConfig? && obj.template.metadata.labels.None? ==>
      st == Step(c, Failure(MissingTemplateLabels(service.name)))
    ensures st.result.Success? ==>
      SameKind(obj, st.result.value) && st.result.value.metadata.namespace == Some(ctx.namespace)
  {
    var meta := Tagged(obj.metadata, ctx.namespace, scenarioId);
    match obj
    case Other(kind, _) => Step(c, Success(Other(kind, meta)))
    case DeploymentConfig(_, template) => EnrichDeployment(ctx, c, scenarioId, service, extra, meta, template)
  }

  /** The objects in template order; the first failure aborts the rest, keeping the cluster changes made so far. */
  function EnrichAll(ctx: Context, c: ClusterState, scenarioId: string, service: Service,
                     extra: map<string, string>, objs: seq<Resource>): (st: Step<seq<Resource>>)
    requires ValidContext(ctx)
    ensures st.result.Success? ==> |st.result.value| == |objs|
  {
    if |objs| == 0 then Step(c, Success([]))
    else
      var prev := EnrichAll(ctx, c, scenarioId, service, extra, objs[..|objs| - 1]);
      if prev.result.Failure? then prev
      else
        var st := EnrichResource(ctx, prev.cluster, scenarioId, service, extra, objs[|objs| - 1]);
        if st.result.Failure? then Step(st.cluster, Failure(st.result.error))
        else Step(st.cluster, Success(prev.result.value + [st.result.value]))
  }

  /** The object is in the namespace and carries the scenario id, with its other labels kept. */
  predicate IsTagged(before: Resource, after: Resource, namespace: string, scenarioId: string)
  {
    && SameKind(before, after)
    && after.metadata.namespace == Some(namespace)
    && after.metadata.labels.Some?
    && after.metadata.labels.value.Keys == before.metadata.labels.GetOr(map[]).Keys + {LabelScenarioId}
    && after.metadata.labels.value[LabelScenarioId] == scenarioId
    && (forall k :: k in before.metadata.labels.GetOr(map[]) && k != LabelScenarioId ==>
          after.metadata.labels.value[k] == before.metadata.labels.value[k])
  }

  /**
   * Every enriched object keeps its kind, is put into the namespace and
   * tagged with the scenario id; a deployment config is renamed after the
   * service and its pod template labelled with the service name and the
   * scenario id; any other object keeps its name and never fails. A
   * deployment config whose pod template has no labels fails before any
   * cluster change.
   */
  lemma EnrichResourceShape(ctx: Context, c: ClusterState, scenarioId: string, service: Service,
                            extra: map<string, string>, obj: Resource)
    requires ValidContext(ctx)
    ensures var st := EnrichResource(ctx, c, scenarioId, service, extra, obj);
      && (st.result.Success? ==> IsTagged(obj, st.result.value, ctx.namespace, scenarioId))
      && (obj.Other? ==> st.cluster == c && st.result.Success? && st.result.value.metadata.name == obj.metadata.name)
      && (obj.DeploymentConfig? && st.result.Success? ==>
            var t := st.result.value.template.metadata;
            && st.result.value.metadata.name == service.name
            && t.namespace == Some(ctx.namespace)
            && t.labels.Some? && t.labels.value[LabelToWatchForLogs] == service.name
            && t.labels.value[LabelScenarioId] == scenarioId)
      && (obj.DeploymentConfig? && obj.template.metadata.labels.None? ==>
            st == Step(c, Failure(MissingTemplateLabels(service.name))))
  {
  }

  /**
   * In an enriched deployment config, every container's variable for a
   * property key holds the extra template value when there is one, and
   * otherwise the resolver's rewrite of the service property; variables of
   * other names are untouched, and containers that had no duplicate
   * variable names still have none.
   */
  lemma EnrichedEnv(ctx: Context, c: ClusterState, scenarioId: string, service: Service,
                    extra: map<string, string>, obj: Resource, j: int, key: string)
    requires ValidContext(ctx)
    requires obj.DeploymentConfig?
    requires EnrichResource(ctx, c, scenarioId, service, extra, obj).result.Success?
    requires 0 <= j < |obj.template.spec.containers|
    ensures var out := EnrichResource(ctx, c, scenarioId, service, extra, obj).result.value;
      var before := obj.template.spec.containers[j].env;
      && |out.template.spec.containers| == |obj.template.spec.containers|
      && var after := out.template.spec.containers[j].env;
      && (key in extra ==> Lookup(after, key) == Some(extra[key]))
      && (key !in extra && key in service.properties ==>
            Lookup(after, key) == Some(RewrittenValue(ctx.syntax, service.properties[key])))
      && (key !in extra && key !in service.properties ==> Lookup(after, key) == Lookup(before, key))
      && (NoDuplicateNames(before) ==> NoDuplicateNames(after))
  {
    var template := obj.template;
    var res := Resolve(ctx, c, service.properties);
    var props := EnvProperties(res, extra);
    var vkeys := ctx.order(res.volumes.Keys);
    var pkeys := ctx.order(props.Keys);
    assert Enumerates(vkeys, res.volumes.Keys) && Enumerates(pkeys, props.Keys);
    var spec := MountAll(template.spec, res.volumes, vkeys);
    MountAllAppends(template.spec, res.volumes, vkeys);
    var before := template.spec.containers[j].env;
    assert spec.containers[j].env == before;
    ResolvedOutput(ctx, c, service.properties, ctx.order(service.properties.Keys));
    assert Enumerates(ctx.order(service.properties.Keys), service.properties.Keys);
    MergedEnvLookup(before, props, pkeys);
    if NoDuplicateNames(before) {
      MergedEnvNoDuplicates(before, props, pkeys);
    }
  }

  /**
   * In an enriched deployment config, every container mounts every volume
   * the resolver recorded, read-only at its mount path, exactly once.
   */
  lemma EnrichedMounts(ctx: Context, c: ClusterState, scenarioId: string, service: Service,
                       extra: map<string, string>, obj: Resource, j: int, path: string)
    requires ValidContext(ctx)
    requires obj.DeploymentConfig?
    requires EnrichResource(ctx, c, scenarioId, service, extra, obj).result.Success?
    requires 0 <= j < |obj.template.spec.containers|
    requires path in Resolve(ctx, c, service.properties).volumes
    ensures var volumes := Resolve(ctx, c, service.properties).volumes;
      var out := EnrichResource(ctx, c, scenarioId, service, extra, obj).result.value;
      && |out.template.spec.containers| == |obj.template.spec.containers|
      && var added := out.template.spec.containers[j].volumeMounts[|obj.template.spec.containers[j].volumeMounts|..];
      && |added| == |volumes|
      && (exists i :: 0 <= i < |added| && added[i] == CreateVolumeMount(path, volumes[path]))
      && (forall i, i' :: 0 <= i < i' < |added| ==> added[i].mountPath != added[i'].mountPath)
  {
    var res := Resolve(ctx, c, service.properties);
    var vkeys := ctx.order(res.volumes.Keys);
    assert Enumerates(vkeys, res.volumes.Keys);
    MountAllAppends(obj.template.spec, res.volumes, vkeys);
    EveryContainerMountsEveryVolume(obj.template.spec, res.volumes, vkeys, j, path);
  }

  /**
   * A completed enrichment returns one object per template object, in
   * order, each of the same kind, in the namespace and tagged with the
   * scenario id.
   */
  lemma {:induction false} EnrichAllTagsEverything(ctx: Context, c: ClusterState, scenarioId: string, service: Service,
                                                   extra: map<string, string>, objs: seq<Resource>)
    requires ValidContext(ctx)
    ensures var st := EnrichAll(ctx, c, scenarioId, service, extra, objs);
      st.result.Success? ==>
        && |st.result.value| == |objs|
        && forall i :: 0 <= i < |objs| ==> IsTagged(objs[i], st.result.value[i], ctx.namespace, scenarioId)
  {
    if |objs| > 0 {
      var init := objs[..|objs| - 1];
      EnrichAllTagsEverything(ctx, c, scenarioId, service, extra, init);
      var prev := EnrichAll(ctx, c, scenarioId, service, extra, init);
      if prev.result.Success? {
        var last := objs[|objs| - 1];
        EnrichResourceShape(ctx, prev.cluster, scenarioId, service, extra, last);
        var st := EnrichResource(ctx, prev.cluster, scenarioId, service, extra, last);
        if st.result.Success? {
          var out := prev.result.value + [st.result.value];
          assert EnrichAll(ctx, c, scenarioId, service, extra, objs).result.value == out;
          forall i | 0 <= i < |objs|
            ensures IsTagged(objs[i], out[i], ctx.namespace, scenarioId)
          {
            if i < |init| {
              assert objs[i] == init[i] && out[i] == prev.result.value[i];
            }
          }
        }
      }
    }
  }

  /** Objects without deployment configs enrich without touching the cluster, and never fail. */
  lemma {:induction false} EnrichWithoutDeployments(ctx: Context, c: ClusterState, scenarioId: string, service: Service,
                                                    extra: map<string, string>, objs: seq<Resource>)
    requires ValidContext(ctx)
    requires forall i :: 0 <= i < |objs| ==> objs[i].Other?
    ensures var st := EnrichAll(ctx, c, scenarioId, service, extra, objs);
      st.cluster == c && st.result.Success?
  {
    if |objs| > 0 {
      EnrichWithoutDeployments(ctx, c, scenarioId, service, extra, objs[..|objs| - 1]);
    }
  }

  /** One more object: the fold continues from the state the prefix left. */
  lemma EnrichAllStep(ctx: Context, c: ClusterState, scenarioId: string, service: Service,
                      extra: map<string, string>, objs: seq<Resource>, i: nat)
    requires ValidContext(ctx)
    requires i < |objs|
    ensures var prev := EnrichAll(ctx, c, scenarioId, service, extra, objs[..i]);
      prev.result.Success? ==>
        var st := EnrichResource(ctx, prev.cluster, scenarioId, service, extra, objs[i]);
        EnrichAll(ctx, c, scenarioId, service, extra, objs[..i + 1])
          == if st.result.Failure? then Step(st.cluster, Failure(st.result.error))
             else Step(st.cluster, Success(prev.result.value + [st.result.value]))
  {
    assert objs[..i + 1][..i] == objs[..i];
  }

  /** Once an object has failed, the remaining objects change nothing. */
  lemma {:induction false} EnrichFailureIsFinal(ctx: Context, c: ClusterState, scenarioId: string, service: Service,
                                                extra: map<string, string>, objs: seq<Resource>, i: nat)
    requires ValidContext(ctx)
    requires i <= |objs|
    requires EnrichAll(ctx, c, scenarioId, service, extra, objs[..i]).result.Failure?
    ensures EnrichAll(ctx, c, scenarioId, service, extra, objs) == EnrichAll(ctx, c, scenarioId, service, extra, objs[..i])
    decreases |objs| - i
  {
    if i < |objs| {
      assert objs[..i + 1][..i] == objs[..i];
      EnrichFailureIsFinal(ctx, c, scenarioId, service, extra, objs, i + 1);
    } else {
      assert objs[..i] == objs;
    }
  }
}

=== FILE: volumes.dfy ===
/**
 * The last phase of property resolution: every recorded volume is added to
 * the pod spec, and every container gets a read-only mount of it.
 */
module Volumes {
  import opened Wrappers
  import opened Kube
  import opened Iteration

  /** `createVolumeMount`: a read-only mount at the mount path; the sub-path expression is set only when non-empty. */
  function CreateVolumeMount(mountPath: string, v: CustomVolume): (m: VolumeMount)
    ensures m.name == v.name && m.readOnly && m.mountPath == mountPath
    ensures m.subPathExpr.Some? <==> v.subFolderRegExp != ""
    ensures m.subPathExpr.Some? ==> m.subPathExpr.value == v.subFolderRegExp
  {
    VolumeMount(v.name, true, mountPath, if v.subFolderRegExp == "" then None else Some(v.subFolderRegExp))
  }

  /** The pod volume a descriptor stands for, backed by the object it names. */
  function ToVolume(v: CustomVolume): Volume
  {
    Volume(v.name, v.kind)
  }

  /** Every container with `m` appended to its mounts. */
  function MountInAll(containers: seq<Container>, m: VolumeMount): (r: seq<Container>)
    ensures |r| == |containers|
    ensures forall j :: 0 <= j < |r| ==> r[j] == containers[j].(volumeMounts := containers[j].volumeMounts + [m])
  {
    seq(|containers|, j requires 0 <= j < |containers| => containers[j].(volumeMounts := containers[j].volumeMounts + [m]))
  }

  /** One volume entry: the volume goes into the pod spec, its mount into every container. */
  function AddVolume(spec: PodSpec, mountPath: string, v: CustomVolume): PodSpec
  {
    PodSpec(MountInAll(spec.containers, CreateVolumeMount(mountPath, v)), spec.volumes + [ToVolume(v)])
  }

  /** The volume entries added in the order of `keys`. */
  function MountAll(spec: PodSpec, volumes: map<string, CustomVolume>, keys: seq<string>): (r: PodSpec)
    requires forall k :: k in keys ==> k in volumes
    ensures |r.volumes| == |spec.volumes| + |keys|
    ensures |r.containers| == |spec.containers|
    ensures forall j :: 0 <= j < |r.containers| ==>
              |r.containers[j].volumeMounts| == |spec.containers[j].volumeMounts| + |keys|
  {
    if |keys| == 0 then spec
    else
      var last := keys[|keys| - 1];
      AddVolume(MountAll(spec, volumes, keys[..|keys| - 1]), last, volumes[last])
  }

  /** The mounts of the volumes named by `keys`, in that order. */
  function MountsFor(volumes: map<string, CustomVolume>, keys: seq<string>): (ms: seq<VolumeMount>)
    requires forall k :: k in keys ==> k in volumes
    ensures |ms| == |keys|
    ensures forall i :: 0 <= i < |keys| ==> ms[i] == CreateVolumeMount(keys[i], volumes[keys[i]])
  {
    seq(|keys|, i requires 0 <= i < |keys| => CreateVolumeMount(keys[i], volumes[keys[i]]))
  }

  /**
   * Mounting appends one volume per key to the pod spec and the same mounts,
   * in the same order, to every container; names and env vars of the
   * containers are not touched.
   */
  lemma {:induction false} MountAllAppends(spec: PodSpec, volumes: map<string, CustomVolume>, keys: seq<string>)
    requires forall k :: k in keys ==> k in volumes
    ensures var r := MountAll(spec, volumes, keys);
      && |r.volumes| == |spec.volumes| + |keys|
      && r.volumes[..|spec.volumes|] == spec.volumes
      && (forall i :: 0 <= i < |keys| ==> r.volumes[|spec.volumes| + i] == ToVolume(volumes[keys[i]]))
      && |r.containers| == |spec.containers|
      && (forall j :: 0 <= j < |r.containers| ==>
            r.containers[j] == spec.containers[j].(volumeMounts := spec.containers[j].volumeMounts + MountsFor(volumes, keys)))
  {
    if |keys| > 0 {
      var init := keys[..|keys| - 1];
      var last := keys[|keys| - 1];
      MountAllAppends(spec, volumes, init);
      var m := MountAll(spec, volumes, init);
      var r := AddVolume(m, last, volumes[last]);
      assert MountsFor(volumes, keys) == MountsFor(volumes, init) + [CreateVolumeMount(last, volumes[last])];
      forall j | 0 <= j < |r.containers|
        ensures r.containers[j] == spec.containers[j].(volumeMounts := spec.containers[j].volumeMounts + MountsFor(volumes, keys))
      {
        var c := spec.containers[j];
        assert c.volumeMounts + MountsFor(volumes, init) + [CreateVolumeMount(last, volumes[last])]
            == c.volumeMounts + MountsFor(volumes, keys);
      }
    }
  }

  /**
   * When the keys enumerate the recorded volumes, every container ends up
   * with exactly one new mount per volume: a read-only mount at its mount
   * path, carrying the descriptor's name and sub-path.
   */
  lemma EveryContainerMountsEveryVolume(spec: PodSpec, volumes: map<string, CustomVolume>, keys: seq<string>, j: int, path: string)
    requires Enumerates(keys, volumes.Keys)
    requires 0 <= j < |spec.containers| && path in volumes
    ensures var added := MountAll(spec, volumes, keys).containers[j].volumeMounts[|spec.containers[j].volumeMounts|..];
      && |added| == |volumes|
      && (exists i :: 0 <= i < |added| && added[i] == CreateVolumeMount(path, volumes[path]))
      && (forall i, i' :: 0 <= i < i' < |added| ==> added[i].mountPath != added[i'].mountPath)
      && (forall i :: 0 <= i < |added| ==> added[i].readOnly && added[i].mountPath in volumes)
  {
    MountAllAppends(spec, volumes, keys);
    var c := spec.containers[j];
    assert MountAll(spec, volumes, keys).containers[j].volumeMounts[|c.volumeMounts|..] == MountsFor(volumes, keys);
    MountsForCoversVolumes(volumes, keys, path);
  }

  /** The mounts for an enumeration of the volumes: one per volume, read-only, at distinct mount paths. */
  lemma MountsForCoversVolumes(volumes: map<string, CustomVolume>, keys: seq<string>, path: string)
    requires Enumerates(keys, volumes.Keys) && path in volumes
    ensures var ms := MountsFor(volumes, keys);
      && |ms| == |volumes|
      && (exists i :: 0 <= i < |ms| && ms[i] == CreateVolumeMount(path, volumes[path]))
      && (forall i, i' :: 0 <= i < i' < |ms| ==> ms[i].mountPath != ms[i'].mountPath)
      && (forall i :: 0 <= i < |ms| ==> ms[i].readOnly && ms[i].mountPath in volumes)
  {
    var ms := MountsFor(volumes, keys);
    DistinctCardinality(keys, volumes.Keys);
    var i :| 0 <= i < |keys| && keys[i] == path;
    assert ms[i] == CreateVolumeMount(path, volumes[path]);
  }

  /** A sequence of distinct keys that enumerates a set has as many elements as the set. */
  lemma {:induction false} DistinctCardinality(keys: seq<string>, s: set<string>)
    requires Enumerates(keys, s)
    ensures |keys| == |s|
  {
    if |keys| > 0 {
      var last := keys[|keys| - 1];
      DistinctInit(keys);
      DistinctCardinality(keys[..|keys| - 1], s - {last});
    }
  }

  /** The mount phase of the resolver: for each volume entry, add the volume and mount it in every container. */
  method MountVolumes(spec: PodSpec, volumes: map<string, CustomVolume>, keys: seq<string>) returns (r: PodSpec)
    requires forall k :: k in keys ==> k in volumes
    ensures r == MountAll(spec, volumes, keys)
  {
    r := spec;
    for i := 0 to |keys|
      invariant r == MountAll(spec, volumes, keys[..i])
    {
      assert keys[..i + 1][..i] == keys[..i];
      var path := keys[i];
      var v := volumes[path];
      r := r.(volumes := r.volumes + [ToVolume(v)]);
      r := r.(containers := MountInAll(r.containers, CreateVolumeMount(path, v)));
    }
    assert keys[..|keys|] == keys;
  }
}

=== FILE: wrappers.dfy ===
/** Option and Result, the failure-carrying types used throughout the model. */
module Wrappers {

  datatype Option<+T> = None | Some(value: T) {
    function GetOr(default: T): T {
      match this
      case Some(v) => v
      case None => default
    }
  }

  datatype Result<+R, +E> = Success(value: R) | Failure(error: E)
}
